=== FILE: README.md ===
# Foodgram backend core in Dafny

This project models the rules of the Foodgram recipe-sharing backend (a Django
REST Framework application) that can be stated without the framework. The
database is modelled as in-memory sequences, sets and maps of records.

- **Shopping-list download.** The requester's cart is joined with the recipe
  ingredients and the ingredient catalog. The rows are grouped by ingredient
  name and measurement unit, and the amounts are summed (`ShoppingCart`). The
  result is laid out page by page as text draw operations, the way
  `create_shopping_list_pdf` draws them (`ShoppingListLayout`). The view
  returns the document as a PDF attachment (`DownloadView`).
- **Link tables.** Subscriptions (user to author), favorites and cart entries
  (user to recipe) each follow the same rules (`Links`):
  - adding a link is refused for a duplicate, and for subscribing to oneself;
  - deleting a subscription answers 204 or 404 by whether a row was removed;
  - deleting a favorite or cart entry fails with a server error as written,
    and follows the subscription rule once the lookup is corrected;
  - the unique and check constraints of the model declarations are kept.
- **Recipe writes.** Covers `validate_ingredients`, the all-or-nothing
  `set_ingredients`, and `create` / `update` with their effect on the
  recipe-ingredient table (`RecipeWrites`).
- **Field validators.** Covers the username pattern `^[\w.@+-]+$` and the
  numeric cooking-time and amount validators, as written and as evidently
  intended (`FieldValidators`). Python's `int()` and `str()` on integers are
  modelled in `PyInt`.
- **Read-side decisions.**
  - Masking of a user's contact fields, and the `is_subscribed`,
    `is_favorited` and `is_in_shopping_cart` flags (`Representation`).
  - The `recipes_limit` prefix (`Representation`).
  - Permission lookup with its default, and the `set_password` check order
    (`Access`).
  - The ingredient name prefix filter and the boolean recipe filters
    (`RecipeFilters`).
- **Record shapes.** Declared field bounds and `__str__` labels (`Models`).
  Requester, status codes, `Option` and `Result` are in `Common`.

The `api` and `recipes` packages carry near-identical serializers and
validators, and `users/validators.py` repeats the username validator. Each
rule is modelled once, and the row of its member in the table below names every copy.

Three facts about the download code shape the layout and aggregate contracts:
- **Page break.** A page breaks when the cursor reaches 780, so a page holds
  38 lines.
- **Name order.** Names come out in non-decreasing order. The query orders
  only by name, so two units of one name give two rows with equal names.
- **Footer position.** The footer lines are drawn at y = 30 and y = 50,
  inside the band of the ingredient lines (y = 20 to 760).

## Model

| member | source | states |
|---|---|---|
| PyInt.DecimalRoundTrip | backend/api/utils.py:25-26 | An integer of at most 4300 digits, printed in decimal as an f-string prints it, parses back to the same integer with `int()`. |
| PyInt.TooManyDigitsRefused | backend/api/validators.py:60 | `int()` refuses digit text longer than 4300 digits, CPython's default conversion limit. |
| PyInt.SmallPrintable | backend/api/serializers.py:119-120 | Every signed 64-bit integer has at most 19 digits, so `str()` and `int()` convert it. |
| FieldValidators.ValidateUsername | backend/api/validators.py:8-11 | A username string is accepted, and returned unchanged, iff it is one or more `[\w.@+-]` characters, optionally followed by a single trailing newline (Python's `$`). Otherwise it is refused with the validator's message. The validator is repeated word for word at backend/users/validators.py:8-11. |
| FieldValidators.UsernameField | backend/api/validators.py:14-23 | On the raw JSON value of the sign-up body, null is refused with "This field may not be null."; a string is accepted iff it has the username shape, and is refused with the validator's message otherwise; any other value (number, boolean, list, object) is a server error, from `re.match`'s `TypeError`. The field is used at backend/api/serializers.py:20 and repeated at backend/users/validators.py:14-23. |
| FieldValidators.UsernameFieldAgrees | backend/users/models.py:26 | On a string, the sign-up field and the model column's validator give the same verdict and the same value. |
| FieldValidators.UsernameMatchIff | backend/api/validators.py:9 | The greedy `re.match` run followed by the `$` check accepts exactly the strings of the pattern's shape. |
| FieldValidators.EmptyUsernameRejected | backend/users/validators.py:9 | The empty string never matches, because the `+` needs at least one character. |
| FieldValidators.AcceptedUsernameAlphabet | backend/users/validators.py:8-11 | An accepted username contains no space and no parenthesis. |
| FieldValidators.PyIntOf | backend/api/validators.py:60 | `int(data)` converts integers and booleans, cuts a finite float toward zero (2.5 gives 2, -2.5 gives -2), and converts text iff Python's integer syntax accepts it and it has at most 4300 digits. It raises `OverflowError` exactly for an infinite float, `TypeError` exactly for null, lists and objects, and `ValueError` only for text. |
| FieldValidators.FractionTruncates | backend/api/validators.py:60 | `int()` of 2.5 is 2 and of -2.5 is -2. |
| FieldValidators.CookingTime | backend/api/validators.py:57-68 | As written, a cooking time is accepted iff `int()` converts it, whatever its value, and the raw data is returned. Null is refused first with "This field may not be null." (400). Unparsable text gives the "must be a number" error. A server error comes exactly from a list, an object or an infinite float. The validator is repeated word for word at backend/recipes/validators.py:38-49. |
| FieldValidators.FractionalCookingTimeAccepted | backend/api/validators.py:57-68 | A cooking time of 2.5 passes as written and is handed on as the float, which converts to 2; an infinite float such as `1e400` gives a server error. |
| FieldValidators.LongNumberRefused | backend/api/validators.py:57-68 | Digit text of more than 4300 digits gets the "must be a number" error from the cooking-time and amount validators. |
| FieldValidators.AmountApi | backend/api/validators.py:78-91 | As written, an amount (bound 32767) is accepted iff `int()` converts it, and the raw data is returned. Null is refused with 400, unparsable text with the "must be a number" error, and a list, an object or an infinite float gives a server error. |
| FieldValidators.AmountRecipes | backend/recipes/validators.py:59-72 | As written, an amount (bound 50000) is accepted iff `int()` converts it, and the raw data is returned. Null is refused with 400, unparsable text with the "must be a number" error, and a list, an object or an infinite float gives a server error. |
| FieldValidators.RangeGuardUnsatisfiable | backend/api/validators.py:60 | The chained comparison `0 >= n > bound` holds for no integer when the bound is not negative. |
| FieldValidators.AmountValidatorsAgree | backend/recipes/validators.py:63 | The two amount validators accept the same inputs, despite their different bounds. |
| FieldValidators.ZeroCookingTimeAccepted | backend/recipes/validators.py:41 | A cooking time of "0" passes the validator as written. |
| FieldValidators.ZeroAmountAccepted | backend/api/validators.py:82 | An amount of "0" passes both amount validators as written. |
| FieldValidators.NumericChecked | backend/api/validators.py:57-68 | The intended check accepts exactly the converted values in 1..bound. Out-of-range values give the range error, unparsable text gives the "must be a number" error, and null is refused first with 400. |
| FieldValidators.CookingTimeChecked | backend/recipes/models.py:102-115 | The corrected cooking-time validator accepts exactly the values 1..1000. |
| FieldValidators.AmountChecked | backend/recipes/models.py:145-156 | The corrected amount validator accepts exactly the values 1..32767. |
| FieldValidators.CorrectedRejectsZero | backend/api/validators.py:60-63 | The corrected validators refuse "0" with the range message. |
| FieldValidators.CorrectionOnlyNarrowsRange | backend/api/validators.py:59-68 | The corrected and written cooking-time validators differ only on convertible values outside 1..1000. |
| Models.CorrectedValidatorsMatchDeclaredBounds | backend/recipes/models.py:102-156 | The corrected validators accept exactly the ranges the model fields declare: cooking time 1..1000, amount 1..32767. |
| Models.UserLabelInjective | backend/users/models.py:56-57 | For valid usernames the label `"{username} ({email})"` determines both the username and the e-mail address. |
| Models.AmountFromLabel | backend/recipes/models.py:163-164 | An amount of at most 4300 digits can be read back from the end of the label `"{recipe} - {ingredient}, {amount}"`. |
| Links.Subscribe | backend/api/serializers.py:131-147 | Subscribing succeeds iff the author exists, is not the requester, and is not yet followed, and then appends exactly that row. The checks run in this order: 404 for an unknown author, then 400 for a self-subscription, then 400 for a duplicate. The answer is rendered only after the row is written, and can still fail (see Representation.SubscribeRequest). |
| Links.AddRecipeLink | backend/api/serializers.py:305-338 | Adding a favorite succeeds iff the pair is new and the recipe exists, and appends exactly that row. The duplicate (400) is checked before the lookup (404). The cart serializer follows the same rule with its own duplicate message; the copies at backend/recipes/serializers.py:174-207 behave identically. |
| Links.AddKeepsConstraints | backend/recipes/models.py:186-227 | A successful add of a favorite or cart entry keeps every (user, recipe) pair unique. Subscriptions (backend/users/models.py:79-90) keep their uniqueness too, and never link a user to themselves. |
| Links.Remove | backend/api/views.py:128-130 | `filter(...).delete()` leaves exactly the rows other than the pair. It removed something iff the pair was present. |
| Links.DeleteLink | backend/api/views.py:127-138 | The subscription DELETE answers 204 iff the link existed. Otherwise it answers 404 with the detail and an unchanged table. Afterwards the link is absent, and every other link is as before. The favorite and cart DELETE branches follow this rule once their lookup is `recipe_id=pk`. |
| Links.DeleteRecipeLinkAsWritten | backend/api/views.py:230-242 | As written, the favorite DELETE passes an unsliced QuerySet to the exact lookup `recipe=`, which Django refuses with `ValueError`. So it answers 500 and every link stays as it was, whether or not the recipe is linked. The cart DELETE at lines 256-268 behaves identically. |
| Links.LinkedRecipeNotRemoved | backend/api/views.py:256-268 | A linked recipe is still linked after the DELETE as written, which answers 500. With the lookup `recipe_id=pk` the same request answers 204 and the link is gone, for favorites and cart entries alike. |
| Links.RemoveKeepsConstraints | backend/users/models.py:79-90 | Deleting keeps the unique and the no-self-subscription constraints. |
| Links.RemoveOne | backend/recipes/models.py:186-194 | Under the unique constraint, a successful delete removes exactly one row. |
| Links.SubscribeThenUnsubscribe | backend/api/views.py:117-138 | Subscribing and then unsubscribing restores the table and answers 204. |
| Links.AddThenRemoveRecipeLink | backend/api/views.py:218-242 | With the corrected DELETE, adding a recipe link and then deleting it restores the table and answers 204. As written, the DELETE answers 500 and the new link stays. |
| Links.DeleteTwice | backend/api/views.py:256-268 | With the corrected DELETE, a second DELETE of the same link answers 404 and changes nothing. As written, both DELETEs answer 500 and the table stays as it was. |
| RecipeWrites.ValidateIngredients | backend/api/serializers.py:253-262 | Validation fails iff some ingredient id repeats, with the duplicate message. Otherwise it returns the items unchanged. The copy at backend/recipes/serializers.py:122-131 behaves identically. |
| RecipeWrites.DropRecipe | backend/api/serializers.py:290 | Deleting a recipe's ingredient rows keeps exactly the rows of other recipes. |
| RecipeWrites.SetIngredients | backend/api/serializers.py:264-276 | All submitted ids are looked up before the one bulk insert. If every id exists and every amount fits the column (not negative), one row per item is appended with that item's amount. An unknown id gives 404, and otherwise a negative amount gives a server error; either way nothing is appended. The copy at backend/recipes/serializers.py:133-145 behaves identically. |
| RecipeWrites.Create | backend/api/serializers.py:278-284 | Duplicate ids give 400 and no change. A negative cooking time breaks the column check: a server error and no recipe row. Otherwise the recipe is created with the requester as author and exactly the submitted tags. Its ingredient rows are appended iff all ids exist and all amounts fit; an unknown id (404) or a negative amount (500) fails after the recipe row exists. The copy at backend/recipes/serializers.py:147-153 behaves identically. |
| RecipeWrites.Update | backend/api/serializers.py:286-293 | The errors before any write are: 404 for a missing recipe, 400 for duplicates, and a server error for missing `tags`. An unknown id (404) or a negative amount (500) leaves the recipe's old rows deleted, its tags replaced and its other fields unchanged. A negative cooking time (500) leaves the new rows and tags in place and the other fields unchanged. On success the recipe's rows are exactly the submitted items (none if the key is absent), other recipes' rows are kept, and the given fields and the author are overwritten. The copy at backend/recipes/serializers.py:155-162 behaves identically. |
| RecipeWrites.UpdateReplacesIngredients | backend/api/serializers.py:288-292 | After an update, the recipe's ingredient rows are exactly the submitted list, or none when the list is absent. |
| RecipeWrites.UpdateKeepsOtherRecipes | backend/api/serializers.py:290 | An update leaves every other recipe's ingredient rows as they were. |
| RecipeWrites.UpdateIdempotent | backend/api/serializers.py:286-293 | Applying the same ingredient replacement twice gives the same table as applying it once. |
| RecipeWrites.CreateSetsIngredients | backend/recipes/serializers.py:147-153 | A new recipe's ingredient rows are exactly one per submitted item. |
| Representation.LinkFlagAsWritten | backend/api/serializers.py:58-62 | As written, `is_subscribed` and `is_in_shopping_cart` are `False` for every authenticated requester, whatever the link tables hold. For an anonymous requester the lookup raises. The same test recurs at lines 104-108 and 227-229 of that file and at backend/recipes/serializers.py:96-98. |
| Representation.LinkFlag | backend/api/serializers.py:58-62 | The intended flag is true iff the requester is signed in and has the link: follows the author for `is_subscribed`, has the recipe in the cart for `is_in_shopping_cart`. |
| Representation.LinkShownAsFalse | backend/api/serializers.py:58-62 | A follower, or a requester with the recipe in the cart, is shown the flag false as written, while the intended flag is true. |
| Representation.SubscribeAnswerShowsFalse | backend/api/serializers.py:144-150 | Right after a successful subscription, the answer's flag is still false as written, while the intended flag is true. |
| Representation.ShowUser | backend/api/serializers.py:49-56 | For an anonymous requester, `email` and `username` become None. Otherwise every field is shown unchanged. |
| Representation.AsWrittenUserRepresentation | backend/api/serializers.py:49-62 | As written, the masking is never reached: an anonymous requester's request fails while the flag is computed, and an authenticated requester always sees the flag false. |
| Representation.MaskedForAnonymous | backend/api/serializers.py:52-56 | With the intended flag, an anonymous requester sees the masked record and no subscription. |
| Representation.AuthorRecipes | backend/api/serializers.py:110-125 | The result depends on the requester and `recipes_limit`: **(1)** None for an anonymous requester. **(2)** All recipes when the limit is absent or empty. **(3)** A 500 when the limit is not an integer (including one of more than 4300 digits), is negative, or exceeds the 64-bit `LIMIT` maximum 9223372036854775807. **(4)** Otherwise the first `min(n, count)` recipes in order. |
| Representation.GenerousLimitListsAll | backend/api/serializers.py:119-120 | A limit of at least the author's recipe count lists all of them when it is at most 9223372036854775807; a larger limit gives a 500. |
| Representation.ZeroLimitListsNone | backend/api/serializers.py:119-120 | `recipes_limit=0` is non-empty text, so it gives an empty list rather than all recipes. |
| Representation.SubscribeRequest | backend/api/serializers.py:110-150 | A subscription POST refused by the checks leaves the table as it was and answers the refusal. Once the checks pass, the row is appended whatever happens next, and the answer is a server error exactly when rendering the author's recipes with `recipes_limit` fails. Otherwise it lists a prefix of the author's recipes. |
| Representation.FailedAnswerKeepsSubscription | backend/api/serializers.py:117-150 | A non-integer, negative or out-of-range `recipes_limit` makes a subscription POST answer 500 with the row written, so a second POST is refused as a duplicate. |
| Representation.NonNumericLimitAfterSubscribing | backend/api/serializers.py:119-120 | `?recipes_limit=abc` on a subscription that passes the checks appends the row and answers the `ValueError` server error. |
| Representation.IsFavorited | backend/api/serializers.py:221-225 | The flag is None for an anonymous requester. Otherwise it says whether the requester's favorite exists. The copy at backend/recipes/serializers.py:90-94 behaves identically. |
| Representation.RecipeFlagsAsWritten | backend/api/serializers.py:221-229 | As written, showing a recipe to an anonymous requester fails with a 500. An authenticated requester sees the favorite flag and a cart flag that is always false. |
| Representation.RecipeFlagsOf | backend/api/serializers.py:221-229 | With the intended check, anonymous requesters see (None, false). Signed-in requesters see whether the favorite exists and whether the cart entry exists. |
| Representation.CartFlagAfterAdd | backend/api/serializers.py:335-338 | After a recipe is added to the cart, the intended flag is on and the written flag stays off. |
| Access.Lookup | backend/api/views.py:58-60 | The table's permission is used for a named action, and `IsAuthenticated` for any other or unknown action. |
| Access.AuthenticatedAlwaysAllowed | backend/api/views.py:180-194 | An authenticated requester passes every action of both view sets. |
| Access.AnonymousUserActions | backend/api/views.py:47-60 | An anonymous requester is let through the user view set iff the action is `create`. |
| Access.AnonymousRecipeActions | backend/api/views.py:180-194 | An anonymous requester is let through the recipe view set iff the action is `list` or `retrieve`. |
| Access.CharField | backend/api/serializers.py:65-69 | A required password field is refused when absent (400), when blank once trimmed (400), and when the trimmed value holds a null character (400, "Null characters are not allowed."). Otherwise it is accepted trimmed. |
| Access.SetPassword | backend/api/views.py:81-103 | Field errors come first (400), then a wrong current password (400), then a new password equal to the current one (400). Only otherwise is the new hash stored, with 204 and the success text. A 400 leaves the stored hash unchanged. |
| Access.RepeatedChangeRefused | backend/api/views.py:95-99 | After a change, submitting the new password as both passwords is refused as a repetition, with the hash unchanged. |
| Access.ChangeBackRestores | backend/api/views.py:90-103 | Changing the password back, with the roles swapped, succeeds and restores the stored hash. |
| RecipeFilters.Keep | backend/recipes/filters.py:43 | A filter keeps exactly the records that satisfy the condition, and never more records than the input. |
| RecipeFilters.KeepConcat | backend/recipes/filters.py:48 | Filtering preserves query order: filtering a concatenation concatenates the filtered parts. |
| RecipeFilters.KeepCounts | backend/recipes/filters.py:43 | Each kept record appears as often as in the input, and every other record not at all. |
| RecipeFilters.KeepKeep | backend/recipes/filters.py:40-48 | Two filters applied in turn keep exactly the records that satisfy both. |
| RecipeFilters.FilterIngredients | backend/recipes/filters.py:8-18 | The `name` query is stripped of surrounding whitespace first. Absent, or empty once stripped, it keeps the list. A stripped query holding a null character is refused with 400 "Null characters are not allowed.". Otherwise exactly the ingredients whose name starts with the stripped query, after case folding, are kept. |
| RecipeFilters.FoundByOwnName | backend/recipes/filters.py:11-14 | Every ingredient whose name neither starts with whitespace nor holds a null character is found by its full name. |
| RecipeFilters.PaddedQueryFindsSame | backend/recipes/filters.py:11-14 | A query padded with a space on each side finds the same ingredients as the bare query. |
| RecipeFilters.LongerQueryNarrows | backend/recipes/filters.py:11-14 | When a longer query is accepted, its prefix is accepted too, and the longer query finds no ingredient that its prefix does not also find. |
| RecipeFilters.LinkedRecipes | backend/recipes/filters.py:43 | Filtering by the requester's links keeps exactly the linked recipes. For the anonymous user it raises. |
| RecipeFilters.LinkFilterMethod | backend/recipes/filters.py:40-48 | For a true value the method returns the linked recipes; for a false value it returns None. |
| RecipeFilters.BooleanFilter | backend/recipes/filters.py:26-48 | An absent parameter keeps the queryset. `true` gives the linked recipes. `false` makes the method return None, which the filter set refuses. |
| RecipeFilters.FilterIsSubset | backend/recipes/filters.py:40-48 | A filtered result never holds a recipe that is not in the input, nor more copies than the input. |
| RecipeFilters.FavoritedAndInCart | backend/recipes/filters.py:26-48 | Both filters together keep exactly the recipes that are favorited and in the cart, in list order. |
| ShoppingCart.Group | backend/api/views.py:273-283 | The rows are strictly sorted by (name, unit), with one row per key that occurs in the cart and the total of that key's amounts. |
| ShoppingCart.Aggregate | backend/api/views.py:273-283 | Names never decrease and no (name, unit) repeats. Every row's key occurs in the cart, with that key's total. Every key that occurs in the cart has a row. |
| ShoppingCart.EmptyCartAggregate | backend/api/views.py:273-284 | An empty cart gives an empty aggregate, not an error. |
| ShoppingCart.ShoppingListUnique | backend/api/views.py:281-283 | Any two lists that keep the query's promise hold the same rows, as many of them. |
| ShoppingListLayout.ThirtyEightLinesPerPage | backend/api/utils.py:29-31 | With a cursor from 20 in steps of 20 and a break at 780, a page holds exactly 38 lines. |
| ShoppingListLayout.CreateShoppingListPdf | backend/api/utils.py:10-47 | The renderer's loop draws exactly the document given in closed form. Each page holds the title (first page only), then its lines, then the footer (last page only). |
| ShoppingListLayout.PageCount | backend/api/utils.py:30-43 | `n` rows give `n div 38 + 1` pages, and every full page holds 38 lines. |
| ShoppingListLayout.LineOpSlot | backend/api/utils.py:22-31 | A line is drawn at x = 10 in size 14, with y a multiple of 20 from 20 to 760. |
| ShoppingListLayout.LinePlacement | backend/api/utils.py:20-31 | Row `i` appears on page `i div 38` at y = 20 + 20 (i mod 38), as the line numbered `i + 1` built from that row. |
| ShoppingListLayout.DrawKinds | backend/api/utils.py:17-41 | Each draw is the title (size 20, first on the first page only), a footer line (size 10, last two on the last page only) or an ingredient line (size 14, at x = 10 in 20..760). |
| ShoppingListLayout.TitleOnce | backend/api/utils.py:17-18 | The title is drawn exactly once, first on the first page, at (130, 750). |
| ShoppingListLayout.FooterOnce | backend/api/utils.py:35-41 | The site address (y = 30) and the download time (y = 50) are drawn once each, as the last two draws of the last page, after every ingredient line. |
| ShoppingListLayout.EmptyDocument | backend/api/utils.py:17-43 | No rows give one page with only the title and the footer. |
| ShoppingListLayout.FooterAloneAfterFullPage | backend/api/utils.py:30-43 | When the row count is a positive multiple of 38, the last page holds only the footer. |
| ShoppingListLayout.NumberingAcrossPages | backend/api/utils.py:21-28 | Read page by page, the ingredient lines are the rows in order, numbered 1..n without restarting. Line k reads `"{k}. {name}, {total} {unit}."`. |
| ShoppingListLayout.LineNumberReadBack | backend/api/utils.py:25-27 | For a number of at most 4300 digits, the text before a line's first '.' parses back to the number. |
| DownloadView.CartOf | backend/api/views.py:274-276 | A recipe is in the requester's cart set iff the cart table links them. |
| DownloadView.Join | backend/api/views.py:274-280 | The join holds exactly one line per recipe-ingredient row whose ingredient exists, with that ingredient's name and unit. |
| DownloadView.DownloadShoppingCart | backend/api/views.py:270-289 | The response has status 200, `application/pdf` and `attachment; filename=shopping-list.pdf`. Its document is the layout of an aggregate that keeps the query's promise for the requester's cart. |
| DownloadView.EmptyCartDocument | backend/api/views.py:273-284 | A requester with an empty cart gets one page with the title and the footer. |
| DownloadView.RemoveFromCartShrinks | backend/api/views.py:256-263 | With the corrected cart DELETE, removing a recipe takes exactly that recipe out of the requester's cart set. As written, the DELETE leaves the cart set as it was. |
| DownloadView.OtherCartsIgnored | backend/api/views.py:274-276 | Other users' cart rows do not change the requester's shopping list. |

## Findings

| source | as written | input that shows it | evidently intended | confidence | as-written member | corrected member |
|---|---|---|---|---|---|---|
| backend/api/validators.py:60 | `if 0 >= int(data) > 1000` is `0 >= n and n > 1000`, which no integer satisfies | cooking time "0" (also "-5", "5000") is accepted | refuse values outside 1..1000 | high, not executed | FieldValidators.ZeroCookingTimeAccepted | FieldValidators.CookingTimeChecked |
| backend/api/validators.py:82 | `if 0 >= int(data) > 32767` is unsatisfiable in the same way | amount "0" is accepted | refuse values outside 1..32767 | high, not executed | FieldValidators.ZeroAmountAccepted | FieldValidators.AmountChecked |
| backend/recipes/validators.py:41 | the same unsatisfiable cooking-time guard | cooking time "0" is accepted | refuse values outside 1..1000 | high, not executed | FieldValidators.ZeroCookingTimeAccepted | FieldValidators.CookingTimeChecked |
| backend/recipes/validators.py:63 | `if 0 >= int(data) > 50000` is unsatisfiable, and the bound disagrees with the message (5000) and the model field (32767) | amount "0" is accepted | refuse values outside the model's 1..32767 | high, not executed | FieldValidators.ZeroAmountAccepted | FieldValidators.AmountChecked |
| backend/api/serializers.py:58-62 | `user.is_anonymous and author.subscribed.filter(user=user).exists()` | a follower viewing the author gets `is_subscribed: false` | `user.is_authenticated and ...` | high, not executed | Representation.LinkShownAsFalse | Representation.LinkFlag |
| backend/api/serializers.py:104-108 | the same inverted test in the subscription serializer | the answer to a new subscription shows `is_subscribed: false` | `user.is_authenticated and ...` | high, not executed | Representation.SubscribeAnswerShowsFalse | Representation.LinkFlag |
| backend/api/serializers.py:227-229 | `user.is_anonymous and recipe.shoppingcart(user=user).exists()`: the test is inverted, and the manager is called rather than filtered | a recipe in the requester's cart is shown with `is_in_shopping_cart: false`; an anonymous listing raises | `user.is_authenticated and recipe.shoppingcart.filter(user=user).exists()` | high, not executed | Representation.LinkShownAsFalse | Representation.LinkFlag |
| backend/recipes/serializers.py:96-98 | the same expression in the `recipes` copy | as above | as above | high, not executed | Representation.RecipeFlagsAsWritten | Representation.RecipeFlagsOf |
| backend/api/views.py:232-235 | `Favorite.objects.filter(user=user, recipe=Recipe.objects.filter(pk=pk)).delete()` passes an unsliced QuerySet to an exact lookup, which Django refuses with `ValueError` | DELETE of a favorited recipe answers 500 and the favorite stays | `filter(user=user, recipe_id=pk)` | high, not executed | Links.LinkedRecipeNotRemoved | Links.DeleteLink |
| backend/api/views.py:258-261 | the same lookup in the cart DELETE | DELETE of a recipe in the cart answers 500 and the entry stays | `filter(user=user, recipe_id=pk)` | high, not executed | Links.DeleteRecipeLinkAsWritten | Links.DeleteLink |

## Left out

- PDF bytes: the ReportLab canvas, font registration, buffer serialization and `save()` (backend/api/utils.py:12-16, 44-47) are left out. A page is the sequence of its text draws.
- Clock and settings: the download time and `CSRF_TRUSTED_ORIGINS[0]` (backend/api/utils.py:35-36) are inputs, `now` and `siteAddress`, already formatted.
- Framework machinery: HTTP, routing, DRF and djoser are left out. So are query execution, pagination of `subscriptions` and list endpoints, and the `me`, list and retrieve actions, which only serialize records.
- Denied access: the status of a refused request (401 or 403) depends on authentication settings that are not part of this model. Only the allow/deny decision is modelled.
- Access.SetPassword: password hashing is a deterministic function parameter `hash`. Salting and Django's hasher choice are not modelled. The body of a field error is one detail string, not DRF's per-field error map.
- Access.CharField: trimming covers the ASCII whitespace of `PyInt.Strip`, not every Unicode space `str.strip()` removes. Non-string JSON values, null included, are not modelled.
- PyInt.Parse: models `int()` on ASCII digits, signs, underscores and ASCII whitespace. Non-ASCII decimal digits and whitespace, which Python also accepts, are not modelled. The 4300-digit limit on the conversion is modelled.
- FieldValidators.ValidateUsername: Unicode `\w` is a parameter `isWord`. Only the facts that it excludes newline, space and parentheses are assumed.
- FieldValidators.UsernameField: a body without a `username` key (the framework's "This field is required.") is not modelled; the field is given a value.
- RecipeFilters.FilterIngredients: case-insensitive comparison is a per-character `fold` parameter. Case mappings that change length and database collation are not modelled. The query is stripped of ASCII whitespace only, as in `Access.CharField`.
- RecipeFilters.FoundByOwnName: an ingredient whose name starts with whitespace is not promised to be found by its full name, because the query loses that whitespace when stripped. Nor is one whose name holds a null character, because that query is refused with 400.
- PyInt.Decimal: prints every integer, while CPython's `str()` raises `ValueError` beyond 4300 digits. Line numbers and summed amounts stay far below that, so the rendered texts are modelled without that error.
- PyInt.DecimalRoundTrip: promised only for integers of at most 4300 digits. Beyond that `str()` raises, so there is no text to read back.
- ShoppingListLayout.LineNumberReadBack: promised only for line numbers of at most 4300 digits, for the same reason.
- Models.AmountFromLabel: promised only for amounts of at most 4300 digits, for the same reason.
- RecipeWrites.FitsColumn: only the `>= 0` check of a `PositiveSmallIntegerField` column is modelled. The upper limit of the column type (32767 for a PostgreSQL `smallint`) depends on the database engine, which is not part of this model.
- FieldValidators.PyIntOf: a float is given by its exact value (`Fraction`) or as `Infinite`. How the parser rounds a JSON decimal to the nearest double is not modelled.
- RecipeFilters.LinkedRecipes: the join with the link table is modelled as a filter that keeps each recipe once. This matches the database only under the unique constraint that `Links.AddKeepsConstraints` and `Links.RemoveKeepsConstraints` preserve.
- The `author` and `tags` filters of the recipe filter set (backend/recipes/filters.py:24-25) are left out. They are stock django-filter filters with no rule of the application's own.
- ShoppingCart.Aggregate: the database orders rows that share a name in no particular unit order. The model sorts them by unit, and only the name order is promised. String order is code-point order, not the database collation.
- RecipeWrites.Create: the new recipe's id is an input `newId` that is not yet in use, standing for the database's id assignment.
- RecipeWrites: submitted amounts and cooking times are the integers the columns receive, that is `int()` of the values the field validators passed (a fraction is cut toward zero). The image (`Base64ImageField`), tag existence checks (`PrimaryKeyRelatedField`) and declared field lengths are not re-checked on write.
- Transactions and concurrency: writes are modelled with autocommit. A 404 from `set_ingredients` after the recipe row was created, or after the old rows were deleted, leaves those writes in place.
- `recipes_count` in the subscription serializer and `RecipeListShortSerializer` are left out. They only count and project fields.
- `ColorFieldValidator` and `validate_colorfield` are left out. They wrap webcolors' name table, which is not part of this model.
- Admin configuration, migrations and `backend/users/urls.py` are left out: they hold no application rules. The migration's amount bound (50000) differs from backend/recipes/models.py:152.

=== FILE: access.dfy ===
/**
  Access decisions of the two view sets and the password change of
  `UserViewSet.set_password`.

  Each view set maps an action name to a permission and falls back to
  `IsAuthenticated` for every action its table does not name, including an
  unknown one (`self.action` is None for a method the router does not route).
 */
module Access {
  import opened Common
  import PyInt

  datatype Permission = AllowAny | IsAuthenticated

  /** Whether a permission lets the requester through. */
  predicate Allows(p: Permission, requester: Requester) {
    p.AllowAny? || requester.Authenticated?
  }

  /** The permission table of `UserViewSet.get_permissions`. */
  const UserPermissions: map<string, Permission> := map[
    "list" := IsAuthenticated,
    "retrieve" := IsAuthenticated,
    "me" := IsAuthenticated,
    "set_password" := IsAuthenticated,
    "subscriptions" := IsAuthenticated,
    "subscribe" := IsAuthenticated,
    "create" := AllowAny
  ]

  /** The permission table of `RecipeViewSet.get_permissions`. */
  const RecipePermissions: map<string, Permission> := map[
    "create" := IsAuthenticated,
    "partial_update" := IsAuthenticated,
    "favorite" := IsAuthenticated,
    "shopping_cart" := IsAuthenticated,
    "download_shopping_cart" := IsAuthenticated,
    "list" := AllowAny,
    "retrieve" := AllowAny
  ]

  /** `permissions_dict.get(self.action, [IsAuthenticated()])`. */
  function Lookup(table: map<string, Permission>, action: Option<string>): (p: Permission)
    ensures action.Some? && action.value in table ==> p == table[action.value]
    ensures action.None? || action.value !in table ==> p == IsAuthenticated
  {
    match action
    case Some(a) => if a in table then table[a] else IsAuthenticated
    case None => IsAuthenticated
  }

  function UserPermission(action: Option<string>): Permission {
    Lookup(UserPermissions, action)
  }

  function RecipePermission(action: Option<string>): Permission {
    Lookup(RecipePermissions, action)
  }

  /** An authenticated requester passes every action of both view sets. */
  lemma AuthenticatedAlwaysAllowed(u: UserId, action: Option<string>)
    ensures Allows(UserPermission(action), Authenticated(u))
    ensures Allows(RecipePermission(action), Authenticated(u))
  {
  }

  /** An anonymous requester reaches `UserViewSet` only to register. */
  lemma AnonymousUserActions(action: Option<string>)
    ensures Allows(UserPermission(action), Anonymous) <==> action == Some("create")
  {
  }

  /** An anonymous requester reaches `RecipeViewSet` only to list and read recipes. */
  lemma AnonymousRecipeActions(action: Option<string>)
    ensures Allows(RecipePermission(action), Anonymous) <==> action == Some("list") || action == Some("retrieve")
  {
  }

  // ---------------------------------------------------------------------------
  // Password change.
  // ---------------------------------------------------------------------------

  const WrongPassword: string := "Неверный пароль"
  const SamePassword: string := "Пароли не должны совпадать"
  const PasswordChanged: string := "Пароль успешно изменен"
  /** The detail of a required `CharField` that is absent. */
  const FieldRequired: string := "This field is required."
  /** The detail of a `CharField` that is empty once trimmed. */
  const FieldBlank: string := "This field may not be blank."

  /**
    A required `CharField` with the framework defaults: an absent value and
    one that is blank once trimmed are refused; so is a trimmed value that
    holds a null character. An accepted value is trimmed.
   */
  function CharField(raw: Option<string>): (r: Result<string>)
    ensures raw.None? ==> r == Err(BadRequest(FieldRequired))
    ensures raw.Some? ==> (r.Ok? <==> PyInt.Strip(raw.value) != "" && '\0' !in PyInt.Strip(raw.value))
    ensures raw.Some? && PyInt.Strip(raw.value) == "" ==> r == Err(BadRequest(FieldBlank))
    ensures raw.Some? && PyInt.Strip(raw.value) != "" && '\0' in PyInt.Strip(raw.value) ==>
      r == Err(BadRequest(NullCharacters))
    ensures r.Ok? ==> r.value == PyInt.Strip(raw.value) && r.value != ""
  {
    match raw
    case None => Err(BadRequest(FieldRequired))
    case Some(s) =>
      var v := PyInt.Strip(s);
      if v == "" then Err(BadRequest(FieldBlank))
      else if '\0' in v then Err(BadRequest(NullCharacters))
      else Ok(v)
  }

  /**
    The outcome of a password change: the stored hash afterwards, the status
    and the response body. Below, `hash` stands for the password hasher: the
    current password checks when its hash equals the stored one, and a new
    password is stored as its hash.
   */
  datatype PasswordAnswer = PasswordAnswer(stored: string, status: int, body: string)

  /**
    `set_password`: the serializer's fields are validated first (400), then
    a wrong current password is refused (400), then a new password equal to
    the current one (400); only otherwise is the new hash stored, with 204.
   */
  function SetPassword(hash: string -> string, stored: string, current: Option<string>, newPassword: Option<string>): (a: PasswordAnswer)
    ensures a.status == NoContent204 || a.status == BadRequest400
    ensures a.status == BadRequest400 <==> a.stored == stored && a.body != PasswordChanged
    ensures a.status == NoContent204 <==>
      CharField(newPassword).Ok? && CharField(current).Ok?
      && hash(CharField(current).value) == stored
      && CharField(newPassword).value != CharField(current).value
    ensures a.status == NoContent204 ==> a.stored == hash(CharField(newPassword).value) && a.body == PasswordChanged
    ensures CharField(newPassword).Ok? && CharField(current).Ok? && hash(CharField(current).value) != stored ==>
      a == PasswordAnswer(stored, BadRequest400, WrongPassword)
    ensures (CharField(newPassword).Ok? && CharField(current).Ok? && hash(CharField(current).value) == stored
             && CharField(newPassword).value == CharField(current).value) ==>
      a == PasswordAnswer(stored, BadRequest400, SamePassword)
  {
    var n := CharField(newPassword);
    var c := CharField(current);
    if n.Err? then PasswordAnswer(stored, BadRequest400, n.failure.message)
    else if c.Err? then PasswordAnswer(stored, BadRequest400, c.failure.message)
    else if hash(c.value) != stored then PasswordAnswer(stored, BadRequest400, WrongPassword)
    else if n.value == c.value then PasswordAnswer(stored, BadRequest400, SamePassword)
    else PasswordAnswer(hash(n.value), NoContent204, PasswordChanged)
  }

  /** Trimming twice changes nothing, so an accepted field value is accepted again unchanged. */
  lemma {:induction false} CharFieldIdempotent(s: string)
    requires CharField(Some(s)).Ok?
    ensures CharField(Some(CharField(Some(s)).value)) == CharField(Some(s))
  {
    StripIdempotent(s);
  }

  lemma {:induction false} StripIdempotent(s: string)
    ensures PyInt.Strip(PyInt.Strip(s)) == PyInt.Strip(s)
  {
    var t := PyInt.Strip(s);
    TrimStartStops(t);
    TrimEndStops(PyInt.TrimStart(t));
    if |t| > 0 {
      TrimStartOfTrimmedEnd(PyInt.TrimStart(s));
    }
  }

  /** A string not starting with whitespace is left alone by `TrimStart`. */
  lemma TrimStartStops(t: string)
    requires |t| == 0 || !PyInt.IsSpace(t[0])
    ensures PyInt.TrimStart(t) == t
  {
  }

  /** A string not ending with whitespace is left alone by `TrimEnd`. */
  lemma TrimEndStops(t: string)
    requires |t| == 0 || !PyInt.IsSpace(t[|t| - 1])
    ensures PyInt.TrimEnd(t) == t
  {
  }

  /** Trimming the end of a string that does not start with whitespace keeps its first character. */
  lemma TrimStartOfTrimmedEnd(s: string)
    requires |s| == 0 || !PyInt.IsSpace(s[0])
    ensures |PyInt.TrimEnd(s)| == 0 || !PyInt.IsSpace(PyInt.TrimEnd(s)[0])
  {
  }

  /**
    After a change the new password checks, so submitting the same change
    again is refused as a repetition of the current password.
   */
  lemma RepeatedChangeRefused(hash: string -> string, stored: string, current: Option<string>, newPassword: string)
    requires SetPassword(hash, stored, current, Some(newPassword)).status == NoContent204
    ensures var a := SetPassword(hash, stored, current, Some(newPassword));
      var v := CharField(Some(newPassword)).value;
      SetPassword(hash, a.stored, Some(v), Some(newPassword)) == PasswordAnswer(a.stored, BadRequest400, SamePassword)
  {
    CharFieldIdempotent(newPassword);
  }

  /** Changing the password back with the roles swapped restores the stored hash. */
  lemma ChangeBackRestores(hash: string -> string, stored: string, current: string, newPassword: string)
    requires SetPassword(hash, stored, Some(current), Some(newPassword)).status == NoContent204
    ensures var a := SetPassword(hash, stored, Some(current), Some(newPassword));
      var b := SetPassword(hash, a.stored, Some(CharField(Some(newPassword)).value), Some(CharField(Some(current)).value));
      b.status == NoContent204 && b.stored == stored
  {
    CharFieldIdempotent(newPassword);
    CharFieldIdempotent(current);
  }
}

=== FILE: aggregate.dfy ===
/**
  The shopping-cart aggregate behind `download_shopping_cart`: every
  recipe-ingredient row whose recipe is in the requester's cart, grouped by
  (ingredient name, measurement unit), amounts summed, ordered by name.

  The relational store's `GROUP BY` / `SUM` / `ORDER BY` is modelled by an
  insertion into a list kept strictly sorted by (name, unit); the store only
  promises the order by name, so rows that share a name may come in any unit
  order there, and `IsShoppingList` states exactly what is promised.
 */
module ShoppingCart {
  import opened Common

  /** A `RecipeIngredient` row joined with its ingredient's name and unit. */
  datatype CartLine = CartLine(recipe: RecipeId, name: string, unit: string, amount: int)

  /** The grouping key: (ingredient name, measurement unit). */
  datatype Key = Key(name: string, unit: string)

  /** One row of the aggregate: `ingredient__name`, `ingredient__measurement_unit`, `ingredient_amount_sum`. */
  datatype ShoppingListRow = ShoppingListRow(name: string, unit: string, total: int)

  function KeyOf(l: CartLine): Key {
    Key(l.name, l.unit)
  }

  function RowKey(r: ShoppingListRow): Key {
    Key(r.name, r.unit)
  }

  // ---------------------------------------------------------------------------
  // Order on names: lexicographic by code point.
  // ---------------------------------------------------------------------------

  predicate StrLess(a: string, b: string) {
    if |a| == 0 then |b| > 0
    else if |b| == 0 then false
    else a[0] < b[0] || (a[0] == b[0] && StrLess(a[1..], b[1..]))
  }

  predicate StrLessEq(a: string, b: string) {
    a == b || StrLess(a, b)
  }

  lemma StrLessIrreflexive(a: string)
    ensures !StrLess(a, a)
  {
  }

  lemma StrLessTransitive(a: string, b: string, c: string)
    requires StrLess(a, b) && StrLess(b, c)
    ensures StrLess(a, c)
  {
  }

  lemma StrLessTrichotomy(a: string, b: string)
    ensures a == b || StrLess(a, b) || StrLess(b, a)
  {
    if |a| > 0 && |b| > 0 && a[0] == b[0] {
      StrLessTrichotomy(a[1..], b[1..]);
      if a[1..] == b[1..] {
        assert a == [a[0]] + a[1..];
        assert b == [b[0]] + b[1..];
      }
    }
  }

  lemma StrLessAsymmetric(a: string, b: string)
    requires StrLess(a, b)
    ensures !StrLess(b, a)
  {
    if StrLess(b, a) {
      StrLessTransitive(a, b, a);
      StrLessIrreflexive(a);
    }
  }

  /** Keys ordered by name, then by unit. */
  predicate KeyLess(a: Key, b: Key) {
    StrLess(a.name, b.name) || (a.name == b.name && StrLess(a.unit, b.unit))
  }

  lemma KeyLessStrictOrder(a: Key, b: Key, c: Key)
    ensures !KeyLess(a, a)
    ensures a == b || KeyLess(a, b) || KeyLess(b, a)
    ensures KeyLess(a, b) && KeyLess(b, c) ==> KeyLess(a, c)
  {
    StrLessIrreflexive(a.name);
    StrLessIrreflexive(a.unit);
    StrLessTrichotomy(a.name, b.name);
    StrLessTrichotomy(a.unit, b.unit);
    if KeyLess(a, b) && KeyLess(b, c) {
      if StrLess(a.name, b.name) && StrLess(b.name, c.name) {
        StrLessTransitive(a.name, b.name, c.name);
      } else if a.name == b.name && b.name == c.name {
        StrLessTransitive(a.unit, b.unit, c.unit);
      }
    }
  }

  // ---------------------------------------------------------------------------
  // What the aggregate must be.
  // ---------------------------------------------------------------------------

  /** The keys that occur among the lines of recipes in the cart. */
  function CartKeys(lines: seq<CartLine>, cart: set<RecipeId>): set<Key> {
    set l | l in lines && l.recipe in cart :: KeyOf(l)
  }

  /** The sum of the amounts of the cart's lines with key `k`. */
  function CartTotal(lines: seq<CartLine>, cart: set<RecipeId>, k: Key): int {
    if |lines| == 0 then 0
    else
      var l := lines[|lines| - 1];
      CartTotal(lines[..|lines| - 1], cart, k) + (if l.recipe in cart && KeyOf(l) == k then l.amount else 0)
  }

  /**
    What the query promises: names never decrease, no (name, unit) pair
    appears twice, each row carries a pair that occurs in the cart together
    with that pair's total, and every pair that occurs in the cart has a row.
   */
  ghost predicate IsShoppingList(lines: seq<CartLine>, cart: set<RecipeId>, out: seq<ShoppingListRow>) {
    && (forall i, j :: 0 <= i < j < |out| ==> StrLessEq(out[i].name, out[j].name))
    && (forall i, j :: 0 <= i < j < |out| ==> RowKey(out[i]) != RowKey(out[j]))
    && (forall i :: 0 <= i < |out| ==>
          RowKey(out[i]) in CartKeys(lines, cart) && out[i].total == CartTotal(lines, cart, RowKey(out[i])))
    && (forall k :: k in CartKeys(lines, cart) ==> exists i :: 0 <= i < |out| && RowKey(out[i]) == k)
  }

  // ---------------------------------------------------------------------------
  // The grouping.
  // ---------------------------------------------------------------------------

  predicate StrictlySorted(rows: seq<ShoppingListRow>) {
    forall i, j :: 0 <= i < j < |rows| ==> KeyLess(RowKey(rows[i]), RowKey(rows[j]))
  }

  function RowKeys(rows: seq<ShoppingListRow>): set<Key> {
    set r | r in rows :: RowKey(r)
  }

  /** The sum of the totals of the rows with key `k`. */
  function Amount(rows: seq<ShoppingListRow>, k: Key): int {
    if |rows| == 0 then 0
    else (if RowKey(rows[0]) == k then rows[0].total else 0) + Amount(rows[1..], k)
  }

  lemma RowKeysCons(x: ShoppingListRow, rest: seq<ShoppingListRow>)
    ensures RowKeys([x] + rest) == {RowKey(x)} + RowKeys(rest)
  {
    assert forall y :: y in [x] + rest <==> y == x || y in rest;
  }

  /** Adds `amount` under key `k`: to the row that has it, or as a new row in key order. */
  function Insert(rows: seq<ShoppingListRow>, k: Key, amount: int): seq<ShoppingListRow>
    decreases |rows|
  {
    if |rows| == 0 then [ShoppingListRow(k.name, k.unit, amount)]
    else if RowKey(rows[0]) == k then [rows[0].(total := rows[0].total + amount)] + rows[1..]
    else if KeyLess(k, RowKey(rows[0])) then [ShoppingListRow(k.name, k.unit, amount)] + rows
    else [rows[0]] + Insert(rows[1..], k, amount)
  }

  /** Inserting adds exactly the key `k` to the keys present. */
  lemma {:induction false} InsertKeys(rows: seq<ShoppingListRow>, k: Key, amount: int)
    ensures RowKeys(Insert(rows, k, amount)) == RowKeys(rows) + {k}
    decreases |rows|
  {
    var r := Insert(rows, k, amount);
    if |rows| == 0 {
      assert r == [r[0]] + [];
      RowKeysCons(r[0], []);
    } else if RowKey(rows[0]) == k {
      RowKeysCons(r[0], rows[1..]);
      RowKeysCons(rows[0], rows[1..]);
      assert rows == [rows[0]] + rows[1..];
    } else if KeyLess(k, RowKey(rows[0])) {
      RowKeysCons(r[0], rows);
    } else {
      InsertKeys(rows[1..], k, amount);
      RowKeysCons(rows[0], Insert(rows[1..], k, amount));
      RowKeysCons(rows[0], rows[1..]);
      assert rows == [rows[0]] + rows[1..];
    }
  }

  /** Inserting adds `amount` to the sum under `k` and leaves every other key's sum alone. */
  lemma {:induction false} InsertAmount(rows: seq<ShoppingListRow>, k: Key, amount: int, k': Key)
    ensures Amount(Insert(rows, k, amount), k') == Amount(rows, k') + (if k' == k then amount else 0)
    decreases |rows|
  {
    var r := Insert(rows, k, amount);
    if |rows| == 0 {
    } else if RowKey(rows[0]) == k {
      assert r[1..] == rows[1..];
    } else if KeyLess(k, RowKey(rows[0])) {
      assert r[1..] == rows;
    } else {
      InsertAmount(rows[1..], k, amount, k');
      assert r[1..] == Insert(rows[1..], k, amount);
    }
  }

  /** A row below every row of a sorted list extends it to a sorted list. */
  lemma SortedCons(x: ShoppingListRow, rest: seq<ShoppingListRow>)
    requires StrictlySorted(rest)
    requires forall j :: 0 <= j < |rest| ==> KeyLess(RowKey(x), RowKey(rest[j]))
    ensures StrictlySorted([x] + rest)
  {
    var r := [x] + rest;
    forall i, j | 0 <= i < j < |r|
      ensures KeyLess(RowKey(r[i]), RowKey(r[j]))
    {
      if i > 0 {
        assert r[i] == rest[i - 1] && r[j] == rest[j - 1];
      }
    }
  }

  /** Inserting into a strictly sorted list keeps it strictly sorted. */
  lemma {:induction false} InsertSorted(rows: seq<ShoppingListRow>, k: Key, amount: int)
    requires StrictlySorted(rows)
    ensures StrictlySorted(Insert(rows, k, amount))
    decreases |rows|
  {
    var r := Insert(rows, k, amount);
    if |rows| == 0 {
    } else if RowKey(rows[0]) == k {
      assert forall i :: 0 <= i < |r| ==> RowKey(r[i]) == RowKey(rows[i]);
    } else if KeyLess(k, RowKey(rows[0])) {
      forall j | 0 <= j < |rows|
        ensures KeyLess(k, RowKey(rows[j]))
      {
        if j > 0 {
          KeyLessStrictOrder(k, RowKey(rows[0]), RowKey(rows[j]));
        }
      }
      SortedCons(r[0], rows);
      assert r == [r[0]] + rows;
    } else {
      KeyLessStrictOrder(k, RowKey(rows[0]), k);
      var tail := rows[1..];
      InsertSorted(tail, k, amount);
      InsertKeys(tail, k, amount);
      var rest := Insert(tail, k, amount);
      forall j | 0 <= j < |rest|
        ensures KeyLess(RowKey(rows[0]), RowKey(rest[j]))
      {
        assert RowKey(rest[j]) in RowKeys(rest);
        if RowKey(rest[j]) != k {
          var y :| y in tail && RowKey(y) == RowKey(rest[j]);
          var m :| 0 <= m < |tail| && tail[m] == y;
          assert rows[m + 1] == y;
        }
      }
      SortedCons(rows[0], rest);
    }
  }

  /**
    Groups the cart's lines, in order, into rows strictly sorted by key,
    one row per key with the sum of that key's amounts.
   */
  function Group(lines: seq<CartLine>, cart: set<RecipeId>): (r: seq<ShoppingListRow>)
    ensures StrictlySorted(r)
    ensures RowKeys(r) == CartKeys(lines, cart)
    ensures forall k :: Amount(r, k) == CartTotal(lines, cart, k)
  {
    if |lines| == 0 then []
    else
      var prefix, l := lines[..|lines| - 1], lines[|lines| - 1];
      assert lines == prefix + [l];
      var acc := Group(prefix, cart);
      assert CartKeys(lines, cart) == CartKeys(prefix, cart) + (if l.recipe in cart then {KeyOf(l)} else {});
      if l.recipe in cart then
        InsertSorted(acc, KeyOf(l), l.amount);
        InsertKeys(acc, KeyOf(l), l.amount);
        forall k
          ensures Amount(Insert(acc, KeyOf(l), l.amount), k) == CartTotal(lines, cart, k)
        {
          InsertAmount(acc, KeyOf(l), l.amount, k);
        }
        Insert(acc, KeyOf(l), l.amount)
      else
        acc
  }

  /** In a strictly sorted list, the sum for a row's key is that row's own total. */
  lemma {:induction false} AmountOfSortedRow(rows: seq<ShoppingListRow>, i: int)
    requires StrictlySorted(rows)
    requires 0 <= i < |rows|
    ensures Amount(rows, RowKey(rows[i])) == rows[i].total
    decreases |rows|
  {
    var k := RowKey(rows[i]);
    if i == 0 {
      AmountOfAbsentKey(rows[1..], k);
    } else {
      KeyLessStrictOrder(RowKey(rows[0]), k, k);
      AmountOfSortedRow(rows[1..], i - 1);
    }
  }

  /** Rows that all sort after `k` contribute nothing under `k`. */
  lemma {:induction false} AmountOfAbsentKey(rows: seq<ShoppingListRow>, k: Key)
    requires forall j :: 0 <= j < |rows| ==> KeyLess(k, RowKey(rows[j]))
    ensures Amount(rows, k) == 0
    decreases |rows|
  {
    if |rows| > 0 {
      KeyLessStrictOrder(k, k, k);
      AmountOfAbsentKey(rows[1..], k);
    }
  }

  /**
    `download_shopping_cart`'s query: the rows of the cart's recipe
    ingredients grouped by (name, unit) with summed amounts.
   */
  function Aggregate(lines: seq<CartLine>, cart: set<RecipeId>): (r: seq<ShoppingListRow>)
    ensures IsShoppingList(lines, cart, r)
  {
    var r := Group(lines, cart);
    forall i | 0 <= i < |r|
      ensures RowKey(r[i]) in CartKeys(lines, cart) && r[i].total == CartTotal(lines, cart, RowKey(r[i]))
    {
      assert RowKey(r[i]) in RowKeys(r);
      AmountOfSortedRow(r, i);
    }
    forall i, j | 0 <= i < j < |r|
      ensures StrLessEq(r[i].name, r[j].name) && RowKey(r[i]) != RowKey(r[j])
    {
      KeyLessStrictOrder(RowKey(r[i]), RowKey(r[j]), RowKey(r[j]));
    }
    forall k | k in CartKeys(lines, cart)
      ensures exists i :: 0 <= i < |r| && RowKey(r[i]) == k
    {
      assert k in RowKeys(r);
      var x :| x in r && RowKey(x) == k;
      var i :| 0 <= i < |r| && r[i] == x;
    }
    r
  }

  lemma {:induction false} GroupOfEmptyCart(lines: seq<CartLine>)
    ensures Group(lines, {}) == []
  {
    if |lines| > 0 {
      GroupOfEmptyCart(lines[..|lines| - 1]);
    }
  }

  /** An empty cart gives an empty aggregate, not an error. */
  lemma EmptyCartAggregate(lines: seq<CartLine>)
    ensures Aggregate(lines, {}) == []
  {
    GroupOfEmptyCart(lines);
  }

  /**
    The promise pins the aggregate down up to the order of rows that share a
    name: two lists that both keep it hold the same rows, as many of them.
   */
  lemma ShoppingListUnique(lines: seq<CartLine>, cart: set<RecipeId>, a: seq<ShoppingListRow>, b: seq<ShoppingListRow>)
    requires IsShoppingList(lines, cart, a) && IsShoppingList(lines, cart, b)
    ensures (set x | x in a) == (set x | x in b)
    ensures |a| == |b|
  {
    forall x | x in a
      ensures x in b
    {
      RowIn(lines, cart, x, a, b);
    }
    forall x | x in b
      ensures x in a
    {
      RowIn(lines, cart, x, b, a);
    }
    DistinctCard(a);
    DistinctCard(b);
  }

  /** A row of one shopping list of a cart is a row of any other. */
  lemma RowIn(lines: seq<CartLine>, cart: set<RecipeId>, x: ShoppingListRow, a: seq<ShoppingListRow>, b: seq<ShoppingListRow>)
    requires x in a && IsShoppingList(lines, cart, a) && IsShoppingList(lines, cart, b)
    ensures x in b
  {
    var i :| 0 <= i < |a| && a[i] == x;
    assert RowKey(x) in CartKeys(lines, cart);
    var j :| 0 <= j < |b| && RowKey(b[j]) == RowKey(x);
    assert b[j] == x;
  }

  /** A list without repeated keys has as many rows as distinct elements. */
  lemma {:induction false} DistinctCard(rows: seq<ShoppingListRow>)
    requires forall i, j :: 0 <= i < j < |rows| ==> RowKey(rows[i]) != RowKey(rows[j])
    ensures |set x | x in rows| == |rows|
    decreases |rows|
  {
    if |rows| > 0 {
      var rest := rows[1..];
      DistinctCard(rest);
      assert (set x | x in rows) == {rows[0]} + (set x | x in rest) by {
        assert rows == [rows[0]] + rest;
      }
    }
  }
}

=== FILE: common.dfy ===
/**
  Shared vocabulary of the recipe-sharing backend model: identifiers, the
  requester of an HTTP call, and the failure-compatible result type that
  stands for the framework's error responses.
 */
module Common {

  /** Primary keys of the relational tables. */
  type UserId = nat
  type RecipeId = nat
  type IngredientId = nat
  type TagId = nat

  /** The user behind a request: the anonymous user or an authenticated account. */
  datatype Requester = Anonymous | Authenticated(id: UserId) {
    predicate IsAnonymous() { Anonymous? }
  }

  /** HTTP status codes the views and the framework answer with. */
  const Ok200: int := 200
  const Created201: int := 201
  const NoContent204: int := 204
  const BadRequest400: int := 400
  const NotFound404: int := 404
  const ServerError500: int := 500

  /** The detail the framework gives a lookup that found nothing (`Http404`, `get_object_or_404`). */
  const NotFoundDetail: string := "Not found."

  /** The detail of the validator every text field carries against the character '\0'. */
  const NullCharacters: string := "Null characters are not allowed."

  /**
    How a request can fail: a validation error (400), a failed lookup such as
    `get_object_or_404` (404), or an exception nobody catches (500).
   */
  datatype Failure =
    | BadRequest(message: string)
    | NotFound(message: string)
    | ServerError(message: string)
  {
    function Status(): (s: int)
      ensures s in {BadRequest400, NotFound404, ServerError500}
    {
      match this
      case BadRequest(_) => BadRequest400
      case NotFound(_) => NotFound404
      case ServerError(_) => ServerError500
    }
  }

  /** A value that may be absent (Python's None). */
  datatype Option<+T> = None | Some(value: T)

  /** A value or the failure that replaced it. */
  datatype Result<+T> = Ok(value: T) | Err(failure: Failure) {
    predicate IsFailure() { Err? }

    function PropagateFailure<U>(): Result<U>
      requires Err?
    {
      Err(failure)
    }

    function Extract(): T
      requires Ok?
    {
      value
    }
  }

  /** Smaller of two integers. */
  function Min(a: int, b: int): int {
    if a <= b then a else b
  }
}

=== FILE: download.dfy ===
/**
  `RecipeViewSet.download_shopping_cart`: the requester's cart is joined
  with the recipe ingredients and the ingredient catalog, grouped by
  ingredient name and unit, laid out as the shopping-list document, and
  returned as a PDF attachment.
 */
module DownloadView {
  import opened Common
  import opened Models
  import Links
  import ShoppingCart
  import ShoppingListLayout

  const ContentType: string := "application/pdf"
  const Disposition: string := "attachment; filename=shopping-list.pdf"

  /** The response: status, the two headers and the document's pages. */
  datatype FileResponse = FileResponse(
    status: int,
    contentType: string,
    disposition: string,
    pages: seq<ShoppingListLayout.Page>
  )

  /** The recipes in `user`'s cart: `recipe__shoppingcart__user=user`. */
  function CartOf(cart: Links.Table, user: UserId): (s: set<RecipeId>)
    ensures forall r: RecipeId :: r in s <==> Links.Linked(cart, user, r)
  {
    set p | p in cart && p.user == user :: p.target
  }

  /** One recipe-ingredient row joined with its ingredient's name and unit. */
  function LineOf(ingredient: Ingredient, ri: RecipeIngredient): ShoppingCart.CartLine {
    ShoppingCart.CartLine(ri.recipe, ingredient.name, ingredient.measurementUnit, ri.amount)
  }

  /**
    The join of the recipe-ingredient rows with the catalog, in row order.
    A row whose ingredient is not in the catalog has no partner and drops out.
   */
  function Join(catalog: map<IngredientId, Ingredient>, rows: seq<RecipeIngredient>): (lines: seq<ShoppingCart.CartLine>)
    ensures |lines| <= |rows|
    ensures forall l :: l in lines <==> exists ri :: ri in rows && ri.ingredient in catalog && l == LineOf(catalog[ri.ingredient], ri)
  {
    if |rows| == 0 then []
    else
      var init := Join(catalog, rows[..|rows| - 1]);
      var ri := rows[|rows| - 1];
      assert forall x :: x in rows <==> x in rows[..|rows| - 1] || x == ri by {
        assert rows == rows[..|rows| - 1] + [ri];
      }
      if ri.ingredient in catalog then init + [LineOf(catalog[ri.ingredient], ri)] else init
  }

  /**
    The view for an authenticated requester: 200 with the PDF headers, the
    document drawn from the aggregate of the requester's cart. An empty cart
    is rendered like any other.
   */
  method DownloadShoppingCart(
    catalog: map<IngredientId, Ingredient>,
    rows: seq<RecipeIngredient>,
    cart: Links.Table,
    user: UserId,
    siteAddress: string,
    now: string
  ) returns (response: FileResponse)
    ensures response.status == Ok200
    ensures response.contentType == ContentType && response.disposition == Disposition
    ensures ShoppingCart.IsShoppingList(Join(catalog, rows), CartOf(cart, user), ShoppingList(catalog, rows, cart, user))
    ensures response.pages == ShoppingListLayout.Document(ShoppingList(catalog, rows, cart, user), siteAddress, now)
  {
    var list := ShoppingCart.Aggregate(Join(catalog, rows), CartOf(cart, user));
    var pages := ShoppingListLayout.CreateShoppingListPdf(list, siteAddress, now);
    response := FileResponse(Ok200, ContentType, Disposition, pages);
  }

  /** The aggregate the view renders. */
  function ShoppingList(catalog: map<IngredientId, Ingredient>, rows: seq<RecipeIngredient>, cart: Links.Table, user: UserId): seq<ShoppingCart.ShoppingListRow> {
    ShoppingCart.Aggregate(Join(catalog, rows), CartOf(cart, user))
  }

  /** With nothing in the cart the document is one page with the title and the footer. */
  lemma EmptyCartDocument(catalog: map<IngredientId, Ingredient>, rows: seq<RecipeIngredient>, cart: Links.Table, user: UserId, siteAddress: string, now: string)
    requires forall p :: p in cart ==> p.user != user
    ensures ShoppingListLayout.Document(ShoppingList(catalog, rows, cart, user), siteAddress, now)
      == [[ShoppingListLayout.TitleOp(), ShoppingListLayout.AddressOp(siteAddress), ShoppingListLayout.TimeOp(now)]]
  {
    assert CartOf(cart, user) == {};
    ShoppingCart.EmptyCartAggregate(Join(catalog, rows));
    ShoppingListLayout.EmptyDocument(siteAddress, now);
  }

  /**
    Taking a recipe out of the cart with the corrected DELETE takes exactly
    that recipe out of the requester's cart set. The DELETE as written leaves
    the cart set, and so the downloaded list, as it was.
   */
  lemma RemoveFromCartShrinks(cart: Links.Table, user: UserId, recipe: RecipeId)
    ensures CartOf(Links.RemoveFromCart(cart, user, recipe).table, user) == CartOf(cart, user) - {recipe}
    ensures CartOf(Links.DeleteRecipeLinkAsWritten(cart, user, recipe).table, user) == CartOf(cart, user)
  {
    var after := CartOf(Links.RemoveFromCart(cart, user, recipe).table, user);
    forall r: RecipeId ensures r in after <==> r in CartOf(cart, user) - {recipe} {
      if r != recipe {
        assert Links.Linked(Links.RemoveFromCart(cart, user, recipe).table, user, r) <==> Links.Linked(cart, user, r);
      }
    }
  }

  /** Another user's cart rows do not change what the requester downloads. */
  lemma OtherCartsIgnored(catalog: map<IngredientId, Ingredient>, rows: seq<RecipeIngredient>, cart: Links.Table, user: UserId, other: UserId, recipe: RecipeId)
    requires other != user
    ensures ShoppingList(catalog, rows, cart + [Links.Pair(other, recipe)], user) == ShoppingList(catalog, rows, cart, user)
  {
    assert CartOf(cart + [Links.Pair(other, recipe)], user) == CartOf(cart, user);
  }
}

=== FILE: filters.dfy ===
/**
  The query filters of the ingredient and recipe lists: the ingredient name
  prefix (`istartswith`) and the `is_favorited` / `is_in_shopping_cart`
  boolean filters of the recipe list. A queryset is the sequence of its
  records in query order; filtering keeps the matching records in order.
 */
module RecipeFilters {
  import opened Common
  import opened Models
  import Links
  import PyInt

  /** Filtering the related table by the anonymous user raises `TypeError`. */
  const AnonymousLookup: string := "TypeError"
  /** The filter set refuses a filter method that does not return a queryset. */
  const NotQuerySet: string := "AssertionError"

  // ---------------------------------------------------------------------------
  // Keeping the matching records.
  // ---------------------------------------------------------------------------

  /** `queryset.filter(...)`: the records satisfying `p`, in their order. */
  function Keep<T(!new)>(s: seq<T>, p: T -> bool): (r: seq<T>)
    ensures |r| <= |s|
    ensures forall x :: x in r <==> x in s && p(x)
  {
    if |s| == 0 then []
    else if p(s[|s| - 1]) then Keep(s[..|s| - 1], p) + [s[|s| - 1]]
    else Keep(s[..|s| - 1], p)
  }

  /** Filtering a concatenation filters each part: the kept records stay in their order. */
  lemma {:induction false} KeepConcat<T(!new)>(a: seq<T>, b: seq<T>, p: T -> bool)
    ensures Keep(a + b, p) == Keep(a, p) + Keep(b, p)
  {
    if |b| > 0 {
      var ab := a + b;
      assert ab[..|ab| - 1] == a + b[..|b| - 1];
      assert ab[|ab| - 1] == b[|b| - 1];
      KeepConcat(a, b[..|b| - 1], p);
    } else {
      assert a + b == a;
    }
  }

  /** A record kept appears in the result as often as in the input; the others not at all. */
  lemma {:induction false} KeepCounts<T(!new)>(s: seq<T>, p: T -> bool, x: T)
    ensures multiset(Keep(s, p))[x] == if p(x) then multiset(s)[x] else 0
  {
    if |s| > 0 {
      KeepCounts(s[..|s| - 1], p, x);
      assert s == s[..|s| - 1] + [s[|s| - 1]];
    }
  }

  /** Applying two filters one after the other keeps the records satisfying both. */
  lemma {:induction false} KeepKeep<T(!new)>(s: seq<T>, p: T -> bool, q: T -> bool, both: T -> bool)
    requires forall x :: both(x) == (p(x) && q(x))
    ensures Keep(Keep(s, p), q) == Keep(s, both)
  {
    if |s| > 0 {
      var init := s[..|s| - 1];
      var last := s[|s| - 1];
      KeepKeep(init, p, q, both);
      if p(last) {
        var k := Keep(init, p) + [last];
        assert k[..|k| - 1] == Keep(init, p);
      }
    }
  }

  // ---------------------------------------------------------------------------
  // Ingredients by name.
  // ---------------------------------------------------------------------------

  /**
    `name__istartswith=query` with `fold` as the case mapping the database
    compares by: the first `|query|` characters of the name agree with the
    query once both are folded.
   */
  predicate IStartsWith(fold: char -> char, name: string, query: string) {
    |query| <= |name| && forall i :: 0 <= i < |query| ==> fold(name[i]) == fold(query[i])
  }

  /**
    `IngredientFilter`: the `name` parameter is stripped of surrounding
    whitespace, as the filter's form field does; absent, or empty once
    stripped, it leaves the list as it is. A stripped query holding the
    character '\0' fails the form field's validator, and the filter backend
    answers 400. Otherwise the ingredients whose name starts with the
    stripped query, case-insensitively, are kept.
   */
  function FilterIngredients(fold: char -> char, ingredients: seq<Ingredient>, name: Option<string>): (r: Result<seq<Ingredient>>)
    ensures name.None? || (name.Some? && PyInt.Strip(name.value) == "") ==> r == Ok(ingredients)
    ensures r.Ok? <==> name.None? || '\0' !in PyInt.Strip(name.value)
    ensures r.Err? ==> r == Err(BadRequest(NullCharacters))
    ensures name.Some? && r.Ok? ==>
      forall i :: i in r.value <==> i in ingredients && IStartsWith(fold, i.name, PyInt.Strip(name.value))
  {
    match name
    case None => Ok(ingredients)
    case Some(raw) =>
      var q := PyInt.Strip(raw);
      if q == "" then Ok(ingredients)
      else if '\0' in q then Err(BadRequest(NullCharacters))
      else Ok(Keep(ingredients, (i: Ingredient) => IStartsWith(fold, i.name, q)))
  }

  /**
    An ingredient whose name neither starts with whitespace nor holds '\0'
    is found by its full name: the stripped name is a prefix of the name.
   */
  lemma FoundByOwnName(fold: char -> char, ingredients: seq<Ingredient>, i: Ingredient)
    requires i in ingredients
    requires |i.name| == 0 || !PyInt.IsSpace(i.name[0])
    requires '\0' !in i.name
    ensures FilterIngredients(fold, ingredients, Some(i.name)).Ok?
    ensures i in FilterIngredients(fold, ingredients, Some(i.name)).value
  {
    var q := PyInt.Strip(i.name);
    assert PyInt.TrimStart(i.name) == i.name;
    assert q == i.name[..|q|];
    assert '\0' !in q by {
      forall k | 0 <= k < |q| ensures q[k] != '\0' {
        assert q[k] == i.name[k];
      }
    }
  }

  /** Padding the query with whitespace finds the same ingredients. */
  lemma PaddedQueryFindsSame(fold: char -> char, ingredients: seq<Ingredient>, q: string)
    ensures FilterIngredients(fold, ingredients, Some(" " + q + " ")) == FilterIngredients(fold, ingredients, Some(q))
  {
    PaddedStrip(q);
  }

  lemma {:induction false} PaddedStrip(q: string)
    ensures PyInt.Strip(" " + q + " ") == PyInt.Strip(q)
  {
    assert " " + q + " " == [' '] + (q + [' ']);
    PyInt.TrimStartSpace(' ', q + [' ']);
    PyInt.TrimStartAppend(q, [' ']);
    var t := PyInt.TrimStart(q);
    if t != "" {
      PyInt.TrimEndSpace(t, ' ');
    } else {
      PyInt.TrimStartSpace(' ', []);
      assert [' '] + [] == [' '];
    }
  }

  /**
    A longer query finds no more ingredients than any of its prefixes, and
    when it is accepted so is the prefix.
   */
  lemma LongerQueryNarrows(fold: char -> char, ingredients: seq<Ingredient>, q: string, more: string)
    ensures FilterIngredients(fold, ingredients, Some(q + more)).Ok? ==>
      && FilterIngredients(fold, ingredients, Some(q)).Ok?
      && forall i :: i in FilterIngredients(fold, ingredients, Some(q + more)).value ==>
        i in FilterIngredients(fold, ingredients, Some(q)).value
  {
    if PyInt.Strip(q) != "" && FilterIngredients(fold, ingredients, Some(q + more)).Ok? {
      PyInt.StripPrefix(q, more);
      var short, long := PyInt.Strip(q), PyInt.Strip(q + more);
      assert '\0' !in short by {
        forall k | 0 <= k < |short| ensures short[k] != '\0' {
          assert long[k] == short[k];
        }
      }
      forall i | i in FilterIngredients(fold, ingredients, Some(q + more)).value
        ensures i in FilterIngredients(fold, ingredients, Some(q)).value
      {
        assert IStartsWith(fold, i.name, long);
        forall k | 0 <= k < |short| ensures fold(i.name[k]) == fold(short[k]) {
          assert long[k] == short[k];
        }
      }
    }
  }

  // ---------------------------------------------------------------------------
  // Recipes by link.
  // ---------------------------------------------------------------------------

  /**
    `queryset.filter(favorite__user=user)` or `filter(shoppingcart__user=user)`:
    the recipes the requester has linked in `table`. The anonymous user is
    not a valid value for the relation, and the lookup raises.
   */
  function LinkedRecipes(requester: Requester, recipes: seq<Recipe>, table: Links.Table): (r: Result<seq<Recipe>>)
    ensures requester.Anonymous? ==> r == Err(ServerError(AnonymousLookup))
    ensures requester.Authenticated? ==>
      r.Ok? && forall x :: x in r.value <==> x in recipes && Links.Linked(table, requester.id, x.id)
  {
    match requester
    case Anonymous => Err(ServerError(AnonymousLookup))
    case Authenticated(u) => Ok(Keep(recipes, (x: Recipe) => Links.Linked(table, u, x.id)))
  }

  /**
    `filter_is_favorited` and `filter_is_in_shopping_cart`: for a true value
    the linked recipes; for a false value the method falls through and
    returns None.
   */
  function LinkFilterMethod(requester: Requester, recipes: seq<Recipe>, table: Links.Table, value: bool): (r: Result<Option<seq<Recipe>>>)
    ensures !value ==> r == Ok(None)
    ensures value && requester.Anonymous? ==> r.Err? && r.failure.Status() == ServerError500
    ensures value && requester.Authenticated? ==> r == Ok(Some(LinkedRecipes(requester, recipes, table).value))
  {
    if value then
      var q :- LinkedRecipes(requester, recipes, table);
      Ok(Some(q))
    else Ok(None)
  }

  /**
    The boolean filter as the filter set applies it: an absent parameter
    leaves the queryset alone, and a method result that is not a queryset is
    refused.
   */
  function BooleanFilter(requester: Requester, recipes: seq<Recipe>, table: Links.Table, value: Option<bool>): (r: Result<seq<Recipe>>)
    ensures value.None? ==> r == Ok(recipes)
    ensures value == Some(false) ==> r == Err(ServerError(NotQuerySet))
    ensures value == Some(true) ==> r == LinkedRecipes(requester, recipes, table)
  {
    match value
    case None => Ok(recipes)
    case Some(v) =>
      var m :- LinkFilterMethod(requester, recipes, table, v);
      if m.None? then Err(ServerError(NotQuerySet)) else Ok(m.value)
  }

  /** A boolean filter that answers keeps only records of its input, never more often than there. */
  lemma FilterIsSubset(requester: Requester, recipes: seq<Recipe>, table: Links.Table, value: Option<bool>)
    requires BooleanFilter(requester, recipes, table, value).Ok?
    ensures multiset(BooleanFilter(requester, recipes, table, value).value) <= multiset(recipes)
  {
    if value.Some? {
      var u := requester.id;
      var p := (x: Recipe) => Links.Linked(table, u, x.id);
      forall x ensures multiset(Keep(recipes, p))[x] <= multiset(recipes)[x] {
        KeepCounts(recipes, p, x);
      }
    }
  }

  /**
    `is_favorited=1&is_in_shopping_cart=1`: the two filters one after the
    other keep exactly the recipes both favorited and in the cart, in list
    order.
   */
  lemma FavoritedAndInCart(u: UserId, recipes: seq<Recipe>, favorites: Links.Table, cart: Links.Table)
    ensures var a := BooleanFilter(Authenticated(u), recipes, favorites, Some(true)).value;
      BooleanFilter(Authenticated(u), a, cart, Some(true))
        == Ok(Keep(recipes, (x: Recipe) => Links.Linked(favorites, u, x.id) && Links.Linked(cart, u, x.id)))
  {
    KeepKeep(recipes, (x: Recipe) => Links.Linked(favorites, u, x.id), (x: Recipe) => Links.Linked(cart, u, x.id),
      (x: Recipe) => Links.Linked(favorites, u, x.id) && Links.Linked(cart, u, x.id));
  }
}

=== FILE: layout.dfy ===
/**
  `create_shopping_list_pdf`: the page layout of the shopping-list PDF.

  The PDF library's canvas is modelled as the list of finished pages, the
  page being drawn and the current font size; a page is the sequence of
  text draws made on it. `CreateShoppingListPdf` is the renderer's loop over
  the aggregate rows, whose state is that canvas, the vertical cursor and the
  1-based running number; its postcondition is that it draws `Document`, the
  result in closed form, about which the remaining lemmas speak.
 */
module ShoppingListLayout {
  import opened Common
  import PyInt
  import ShoppingCart

  type Row = ShoppingCart.ShoppingListRow

  /** `drawString(x, y, text)` made while the font size was `fontSize`. */
  datatype DrawOp = DrawOp(x: int, y: int, fontSize: int, text: string)

  type Page = seq<DrawOp>

  /** The canvas: pages already shown, the page being drawn, the current font size. */
  datatype Canvas = Canvas(finished: seq<Page>, page: Page, fontSize: int)

  /** The font size the PDF library starts every page with. */
  const DefaultFontSize: int := 12

  function NewCanvas(): Canvas {
    Canvas([], [], DefaultFontSize)
  }

  function SetFont(c: Canvas, size: int): Canvas {
    c.(fontSize := size)
  }

  function DrawString(c: Canvas, x: int, y: int, text: string): Canvas {
    c.(page := c.page + [DrawOp(x, y, c.fontSize, text)])
  }

  /** `showPage()`: the page is finished and a fresh one begins with the default font. */
  function ShowPage(c: Canvas): Canvas {
    Canvas(c.finished + [c.page], [], DefaultFontSize)
  }

  // Layout constants.

  const Title: string := "Список ингредиентов для рецептов"
  const TitleX: int := 130
  const TitleY: int := 750
  const TitleSize: int := 20
  const LineX: int := 10
  const LineSize: int := 14
  /** Where the cursor starts on every page. */
  const Top: int := 20
  const LineHeight: int := 20
  /** The cursor value that forces a page break. */
  const PageBound: int := 780
  const FooterX: int := 50
  const AddressY: int := 30
  const TimeY: int := 50
  const FooterSize: int := 10
  const AddressPrefix: string := "Адрес сайта: "
  const TimePrefix: string := "Дата и время скачивания: "

  /** `f"{number}. {name}, {sum} {unit}."` */
  function LineText(number: int, row: Row): string {
    PyInt.Decimal(number) + ". " + row.name + ", " + PyInt.Decimal(row.total) + " " + row.unit + "."
  }

  /** The renderer's loop state. */
  datatype Layout = Layout(canvas: Canvas, cursor: int, number: int)

  /** Title at the top of the first page, then the line font and the cursor at its start. */
  function Start(): Layout {
    var c := SetFont(NewCanvas(), TitleSize);
    var c := DrawString(c, TitleX, TitleY, Title);
    Layout(SetFont(c, LineSize), Top, 1)
  }

  /** One iteration of the loop: draw the line, advance, break the page at the bound. */
  function Step(st: Layout, row: Row): Layout {
    var c := DrawString(st.canvas, LineX, st.cursor, LineText(st.number, row));
    var cursor := st.cursor + LineHeight;
    if cursor >= PageBound then
      Layout(SetFont(ShowPage(c), LineSize), Top, st.number + 1)
    else
      Layout(c, cursor, st.number + 1)
  }

  /** After the loop: the footer in the small font on the page in progress, then the final `showPage`. */
  function Finish(st: Layout, siteAddress: string, now: string): seq<Page> {
    var c := SetFont(st.canvas, FooterSize);
    var c := DrawString(c, FooterX, AddressY, AddressPrefix + siteAddress);
    var c := DrawString(c, FooterX, TimeY, TimePrefix + now);
    ShowPage(c).finished
  }

  // ---------------------------------------------------------------------------
  // Closed form.
  // ---------------------------------------------------------------------------

  /**
    A page holds 38 lines: the cursor runs 20, 40, ..., 760 and the page
    breaks when it reaches 780.
   */
  lemma ThirtyEightLinesPerPage()
    ensures Top + LineHeight * 37 < PageBound <= Top + LineHeight * 38
  {
  }

  function TitleOp(): DrawOp {
    DrawOp(TitleX, TitleY, TitleSize, Title)
  }

  function AddressOp(siteAddress: string): DrawOp {
    DrawOp(FooterX, AddressY, FooterSize, AddressPrefix + siteAddress)
  }

  function TimeOp(now: string): DrawOp {
    DrawOp(FooterX, TimeY, FooterSize, TimePrefix + now)
  }

  /** The draw of row `i` (0-based): numbered `i + 1`, at its slot on its page. */
  function LineOp(i: nat, row: Row): DrawOp {
    DrawOp(LineX, Top + LineHeight * Slot(i), LineSize, LineText(i + 1, row))
  }

  /** The slot of row `i` on its page, `i mod 38`, counted off page by page. */
  function Slot(i: nat): (s: nat)
    ensures s < 38
  {
    if i < 38 then i else Slot(i - 38)
  }

  lemma {:induction false} SlotIsMod(i: nat)
    ensures Slot(i) == i % 38
  {
    if i >= 38 {
      SlotIsMod(i - 38);
    }
  }

  /** The draws of rows `lo` to `hi - 1`. */
  function Lines(rows: seq<Row>, lo: nat, hi: nat): (ops: seq<DrawOp>)
    requires lo <= hi <= |rows|
    ensures |ops| == hi - lo
  {
    seq(hi - lo, j requires 0 <= j < hi - lo => LineOp(lo + j, rows[lo + j]))
  }

  /** What a page holds before its lines: the title on the first page only. */
  function Head(p: nat): seq<DrawOp> {
    if p == 0 then [TitleOp()] else []
  }

  /** Index of the page a document of `n` rows ends on. */
  function LastPage(n: nat): nat {
    n / 38
  }

  /** The row index one past the last row drawn on page `p`. */
  function PageEnd(n: nat, p: nat): nat
    requires p <= LastPage(n)
  {
    if p < LastPage(n) then 38 * p + 38 else n
  }

  function Footer(siteAddress: string, now: string): seq<DrawOp> {
    [AddressOp(siteAddress), TimeOp(now)]
  }

  /** Page `p` of the document: head, its lines, and the footer if it is the last. */
  function PageOf(rows: seq<Row>, siteAddress: string, now: string, p: nat): Page
    requires p <= LastPage(|rows|)
  {
    Head(p)
      + Lines(rows, 38 * p, PageEnd(|rows|, p))
      + (if p == LastPage(|rows|) then Footer(siteAddress, now) else [])
  }

  /** The whole document in closed form. */
  function Document(rows: seq<Row>, siteAddress: string, now: string): (doc: seq<Page>)
    ensures |doc| == LastPage(|rows|) + 1
  {
    seq(LastPage(|rows|) + 1, p requires 0 <= p <= LastPage(|rows|) => PageOf(rows, siteAddress, now, p))
  }

  // ---------------------------------------------------------------------------
  // The loop draws the closed form.
  // ---------------------------------------------------------------------------

  lemma LinesSnoc(rows: seq<Row>, lo: nat, hi: nat)
    requires lo <= hi < |rows|
    ensures Lines(rows, lo, hi + 1) == Lines(rows, lo, hi) + [LineOp(hi, rows[hi])]
  {
  }

  lemma LinesConcat(rows: seq<Row>, lo: nat, mid: nat, hi: nat)
    requires lo <= mid <= hi <= |rows|
    ensures Lines(rows, lo, mid) + Lines(rows, mid, hi) == Lines(rows, lo, hi)
  {
  }

  /** The page of 38 lines that page `p` holds once it is finished. */
  function FullPage(rows: seq<Row>, p: nat): Page
    requires 38 * p + 38 <= |rows|
  {
    Head(p) + Lines(rows, 38 * p, 38 * p + 38)
  }

  /** Each of `pages` is the full page of its index. */
  ghost predicate FullPages(rows: seq<Row>, pages: seq<Page>) {
    forall p :: 0 <= p < |pages| ==> 38 * p + 38 <= |rows| && pages[p] == FullPage(rows, p)
  }

  lemma FullPagesSnoc(rows: seq<Row>, pages: seq<Page>)
    requires FullPages(rows, pages) && 38 * |pages| + 38 <= |rows|
    ensures FullPages(rows, pages + [FullPage(rows, |pages|)])
  {
    var pages' := pages + [FullPage(rows, |pages|)];
    forall p | 0 <= p < |pages'|
      ensures 38 * p + 38 <= |rows| && pages'[p] == FullPage(rows, p)
    {
      if p < |pages| {
        assert pages'[p] == pages[p];
      }
    }
  }

  /**
    The loop state after drawing `38 * q + r` rows: the number is one past
    that, the cursor sits at slot `r`, `q` pages are finished each with its
    38 lines (the first also with the title), and the page in progress holds
    the remaining `r` lines.
   */
  ghost predicate Shaped(rows: seq<Row>, q: nat, r: nat, st: Layout)
    requires r < 38 && 38 * q + r <= |rows|
  {
    && st.number == 38 * q + r + 1
    && st.cursor == Top + LineHeight * r
    && st.canvas.fontSize == LineSize
    && |st.canvas.finished| == q
    && FullPages(rows, st.canvas.finished)
    && st.canvas.page == Head(q) + Lines(rows, 38 * q, 38 * q + r)
  }

  lemma SlotOf(q: nat, r: nat)
    requires r < 38
    ensures (38 * q + r) % 38 == r
    ensures (38 * q + r) / 38 == q
    ensures Slot(38 * q + r) == r
  {
    SlotIsMod(38 * q + r);
  }

  /** Row `i` is slot `i mod 38` of page `i div 38`. */
  lemma PageAndSlot(i: nat)
    ensures i % 38 < 38 && 38 * (i / 38) + i % 38 == i
  {
  }

  /** The draw a step makes for row `38 * q + r` is that row's closed-form draw. */
  lemma StepDraw(rows: seq<Row>, q: nat, r: nat, st: Layout)
    requires r < 38 && 38 * q + r < |rows|
    requires st.number == 38 * q + r + 1 && st.cursor == Top + LineHeight * r && st.canvas.fontSize == LineSize
    requires st.canvas.page == Head(q) + Lines(rows, 38 * q, 38 * q + r)
    ensures var i := 38 * q + r;
      st.canvas.page + [DrawOp(LineX, st.cursor, st.canvas.fontSize, LineText(st.number, rows[i]))]
        == Head(q) + Lines(rows, 38 * q, i + 1)
  {
    var i := 38 * q + r;
    SlotOf(q, r);
    assert DrawOp(LineX, st.cursor, st.canvas.fontSize, LineText(st.number, rows[i])) == LineOp(i, rows[i]);
    LinesSnoc(rows, 38 * q, i);
  }

  /** A step whose cursor stays above the bound adds the draw to the current page. */
  lemma StepKeepsPage(st: Layout, row: Row)
    requires st.cursor + LineHeight < PageBound
    ensures var op := DrawOp(LineX, st.cursor, st.canvas.fontSize, LineText(st.number, row));
      Step(st, row) == Layout(st.canvas.(page := st.canvas.page + [op]), st.cursor + LineHeight, st.number + 1)
  {
  }

  /** A step whose cursor reaches the bound finishes the page with the draw on it. */
  lemma StepShowsPage(st: Layout, row: Row)
    requires st.cursor + LineHeight >= PageBound
    ensures var op := DrawOp(LineX, st.cursor, st.canvas.fontSize, LineText(st.number, row));
      Step(st, row) == Layout(Canvas(st.canvas.finished + [st.canvas.page + [op]], [], LineSize), Top, st.number + 1)
  {
  }

  /** A step within a page keeps the shape and moves to the next slot. */
  lemma StepWithinPage(rows: seq<Row>, q: nat, r: nat, st: Layout)
    requires r + 1 < 38 && 38 * q + r < |rows|
    requires Shaped(rows, q, r, st)
    ensures Shaped(rows, q, r + 1, Step(st, rows[38 * q + r]))
  {
    StepDraw(rows, q, r, st);
    StepKeepsPage(st, rows[38 * q + r]);
  }

  /** The step drawing the 38th line of a page finishes it and starts the next one. */
  lemma StepBreaksPage(rows: seq<Row>, q: nat, r: nat, st: Layout)
    requires r == 37 && 38 * q + r < |rows|
    requires Shaped(rows, q, r, st)
    ensures Shaped(rows, q + 1, 0, Step(st, rows[38 * q + r]))
  {
    StepDraw(rows, q, r, st);
    StepShowsPage(st, rows[38 * q + r]);
    FullPagesSnoc(rows, st.canvas.finished);
    assert Lines(rows, 38 * q + 38, 38 * q + 38) == [];
  }

  /** One step of the loop keeps the shape, at the next slot or on the next page. */
  lemma StepShaped(rows: seq<Row>, q: nat, r: nat, st: Layout) returns (q': nat, r': nat)
    requires r < 38 && 38 * q + r < |rows|
    requires Shaped(rows, q, r, st)
    ensures r' < 38 && 38 * q' + r' == 38 * q + r + 1
    ensures Shaped(rows, q', r', Step(st, rows[38 * q + r]))
  {
    if r + 1 < 38 {
      StepWithinPage(rows, q, r, st);
      q', r' := q, r + 1;
    } else {
      StepBreaksPage(rows, q, r, st);
      q', r' := q + 1, 0;
    }
  }

  lemma StartShape(rows: seq<Row>)
    ensures Shaped(rows, 0, 0, Start())
  {
    assert Lines(rows, 0, 0) == [];
  }

  /** The finished pages of the loop are the full pages of the document. */
  lemma FinishedPage(rows: seq<Row>, siteAddress: string, now: string, p: nat)
    requires p < LastPage(|rows|)
    ensures FullPage(rows, p) == PageOf(rows, siteAddress, now, p)
  {
  }

  /** The page in progress, with the footer, is the last page of the document. */
  lemma LastPageOf(rows: seq<Row>, siteAddress: string, now: string, st: Layout)
    requires Shaped(rows, LastPage(|rows|), |rows| % 38, st)
    ensures st.canvas.page + Footer(siteAddress, now) == PageOf(rows, siteAddress, now, LastPage(|rows|))
  {
  }

  /** The footer completes the loop's state into the document. */
  lemma FinishShaped(rows: seq<Row>, siteAddress: string, now: string, q: nat, r: nat, st: Layout)
    requires r < 38 && 38 * q + r == |rows|
    requires Shaped(rows, q, r, st)
    ensures Finish(st, siteAddress, now) == Document(rows, siteAddress, now)
  {
    var doc := Finish(st, siteAddress, now);
    var expected := Document(rows, siteAddress, now);
    assert q == LastPage(|rows|) && r == |rows| % 38;
    assert st.canvas.page + [AddressOp(siteAddress)] + [TimeOp(now)] == st.canvas.page + Footer(siteAddress, now);
    assert doc == st.canvas.finished + [st.canvas.page + Footer(siteAddress, now)];
    forall p | 0 <= p < |doc|
      ensures doc[p] == expected[p]
    {
      if p < q {
        FinishedPage(rows, siteAddress, now, p);
      } else {
        LastPageOf(rows, siteAddress, now, st);
      }
    }
  }

  /**
    `create_shopping_list_pdf(rows)` with the clock reading `now` and the
    configured site address: the title, one line per row with a page break
    whenever the cursor reaches the bound, the footer, the final `showPage`.
    The pages it draws are the closed-form document.
   */
  method CreateShoppingListPdf(rows: seq<Row>, siteAddress: string, now: string) returns (pages: seq<Page>)
    ensures pages == Document(rows, siteAddress, now)
  {
    var st := Start();
    ghost var q: nat, r: nat := 0, 0;
    StartShape(rows);
    var i := 0;
    while i < |rows|
      invariant i <= |rows|
      invariant r < 38 && i == 38 * q + r
      invariant Shaped(rows, q, r, st)
    {
      q, r := StepShaped(rows, q, r, st);
      st := Step(st, rows[i]);
      i := i + 1;
    }
    pages := Finish(st, siteAddress, now);
    FinishShaped(rows, siteAddress, now, q, r, st);
  }

  // ---------------------------------------------------------------------------
  // Properties of the rendered document.
  // ---------------------------------------------------------------------------

  /** A page breaks after every 38th line: `n div 38 + 1` pages for `n` rows. */
  lemma PageCount(rows: seq<Row>, siteAddress: string, now: string)
    ensures |Document(rows, siteAddress, now)| == |rows| / 38 + 1
    ensures forall p :: 0 <= p < |rows| / 38 ==>
      |Document(rows, siteAddress, now)[p]| == |Head(p)| + 38
  {
  }

  /** The first draw of the first page is the title, and no other page has one. */
  lemma PageTitleAt(rows: seq<Row>, siteAddress: string, now: string, p: nat, j: nat)
    requires p <= LastPage(|rows|)
    requires j < |Head(p)|
    ensures j < |PageOf(rows, siteAddress, now, p)|
    ensures p == 0 && j == 0 && PageOf(rows, siteAddress, now, p)[j] == TitleOp()
  {
  }

  /** After the head come the page's lines, in row order. */
  lemma PageLineAt(rows: seq<Row>, siteAddress: string, now: string, p: nat, k: nat)
    requires p <= LastPage(|rows|)
    requires k < PageEnd(|rows|, p) - 38 * p
    ensures |Head(p)| + k < |PageOf(rows, siteAddress, now, p)|
    ensures PageOf(rows, siteAddress, now, p)[|Head(p)| + k] == LineOp(38 * p + k, rows[38 * p + k])
  {
    var head, lines := Head(p), Lines(rows, 38 * p, PageEnd(|rows|, p));
    var tail := if p == LastPage(|rows|) then Footer(siteAddress, now) else [];
    assert PageOf(rows, siteAddress, now, p) == head + lines + tail;
    IndexMiddle(head, lines, tail, k);
  }

  /** Element `k` of the middle part of a concatenation. */
  lemma IndexMiddle<T>(a: seq<T>, b: seq<T>, c: seq<T>, k: nat)
    requires k < |b|
    ensures |a| + k < |a + b + c| && (a + b + c)[|a| + k] == b[k]
  {
  }

  /** After the lines, only the last page has draws: the two footer lines. */
  lemma PageFooterAt(rows: seq<Row>, siteAddress: string, now: string, p: nat, j: nat)
    requires p <= LastPage(|rows|)
    requires |Head(p)| + (PageEnd(|rows|, p) - 38 * p) <= j < |PageOf(rows, siteAddress, now, p)|
    ensures var k := j - |Head(p)| - (PageEnd(|rows|, p) - 38 * p);
      p == LastPage(|rows|) && k < 2 && j >= |PageOf(rows, siteAddress, now, p)| - 2
      && PageOf(rows, siteAddress, now, p)[j] == Footer(siteAddress, now)[k]
  {
  }

  /** A line draw sits at x = 10 in size 14, at a multiple of 20 from 20 to 760. */
  lemma LineOpSlot(i: nat, row: Row)
    ensures var op := LineOp(i, row);
      op.fontSize == LineSize && op.x == LineX
      && Top <= op.y <= Top + LineHeight * 37 && op.y % LineHeight == 0
  {
    var s := Slot(i);
    assert Top + LineHeight * s == LineHeight * (s + 1);
  }

  /**
    Row `i` is drawn on page `i div 38`, after the title on the first page,
    at x = 10 and y = 20 + 20 * (i mod 38), in size 14, as the line numbered
    `i + 1` built from that row.
   */
  lemma LinePlacement(rows: seq<Row>, siteAddress: string, now: string, i: nat)
    requires i < |rows|
    ensures var doc := Document(rows, siteAddress, now);
      var p := i / 38;
      var j := |Head(p)| + i % 38;
      p < |doc| && j < |doc[p]| &&
      doc[p][j] == DrawOp(LineX, Top + LineHeight * (i % 38), LineSize, LineText(i + 1, rows[i]))
  {
    var p, s := i / 38, i % 38;
    PageAndSlot(i);
    LineAt(rows, siteAddress, now, p, s, i);
    var doc := Document(rows, siteAddress, now);
    assert doc[p][|Head(p)| + s] == DrawOp(LineX, Top + LineHeight * s, LineSize, LineText(i + 1, rows[i]));
  }

  lemma LineAt(rows: seq<Row>, siteAddress: string, now: string, p: nat, s: nat, i: nat)
    requires s < 38 && i == 38 * p + s && i < |rows|
    ensures var doc := Document(rows, siteAddress, now);
      var j := |Head(p)| + s;
      p < |doc| && j < |doc[p]|
      && doc[p][j] == DrawOp(LineX, Top + LineHeight * s, LineSize, LineText(i + 1, rows[i]))
  {
    RowOnPage(|rows|, p, s);
    var doc, page := Document(rows, siteAddress, now), PageOf(rows, siteAddress, now, p);
    assert doc[p] == page;
    PageLineAt(rows, siteAddress, now, p, s);
    assert page[|Head(p)| + s] == LineOp(i, rows[i]);
    LineOpOfSlot(p, s, i, rows[i]);
  }

  lemma LineOpOfSlot(p: nat, s: nat, i: nat, row: Row)
    requires s < 38 && i == 38 * p + s
    ensures LineOp(i, row) == DrawOp(LineX, Top + LineHeight * s, LineSize, LineText(i + 1, row))
  {
    SlotOf(p, s);
  }

  /** Slot `s` of page `p` holds a row exactly when that row exists. */
  lemma RowOnPage(n: nat, p: nat, s: nat)
    requires s < 38 && 38 * p + s < n
    ensures p <= LastPage(n) && 38 * p + s < PageEnd(n, p)
  {
    var last := n / 38;
    assert 38 * last <= n < 38 * last + 38;
  }

  /**
    The kind of draw `op` at position `j` of page `p`, on a page of `size`
    draws in a document whose last page is `last`, told apart by font size.
   */
  predicate KindOf(op: DrawOp, p: nat, j: nat, last: nat, size: nat, siteAddress: string, now: string) {
    && (op.fontSize == TitleSize <==> p == 0 && j == 0)
    && (op.fontSize == TitleSize ==> op == TitleOp())
    && (op.fontSize == FooterSize <==> p == last && j >= size - 2)
    && (op.fontSize == FooterSize ==> op == (if j == size - 2 then AddressOp(siteAddress) else TimeOp(now)))
    && (op.fontSize == LineSize ==> op.x == LineX && Top <= op.y <= Top + LineHeight * 37 && op.y % LineHeight == 0)
    && (op.fontSize == TitleSize || op.fontSize == FooterSize || op.fontSize == LineSize)
  }

  /** The number of draws on page `p`. */
  lemma PageSize(rows: seq<Row>, siteAddress: string, now: string, p: nat)
    requires p <= LastPage(|rows|)
    ensures |PageOf(rows, siteAddress, now, p)|
      == |Head(p)| + (PageEnd(|rows|, p) - 38 * p) + (if p == LastPage(|rows|) then 2 else 0)
  {
  }

  lemma TitleKind(rows: seq<Row>, siteAddress: string, now: string, p: nat, j: nat)
    requires p <= LastPage(|rows|) && j < |Head(p)|
    ensures j < |PageOf(rows, siteAddress, now, p)|
    ensures KindOf(PageOf(rows, siteAddress, now, p)[j], p, j, LastPage(|rows|), |PageOf(rows, siteAddress, now, p)|, siteAddress, now)
  {
    PageTitleAt(rows, siteAddress, now, p, j);
    PageSize(rows, siteAddress, now, p);
  }

  lemma LineKind(rows: seq<Row>, siteAddress: string, now: string, p: nat, k: nat)
    requires p <= LastPage(|rows|) && k < PageEnd(|rows|, p) - 38 * p
    ensures var j := |Head(p)| + k;
      j < |PageOf(rows, siteAddress, now, p)|
      && KindOf(PageOf(rows, siteAddress, now, p)[j], p, j, LastPage(|rows|), |PageOf(rows, siteAddress, now, p)|, siteAddress, now)
  {
    PageLineAt(rows, siteAddress, now, p, k);
    PageSize(rows, siteAddress, now, p);
    var i := 38 * p + k;
    LineOpSlot(i, rows[i]);
  }

  lemma FooterKind(rows: seq<Row>, siteAddress: string, now: string, p: nat, j: nat)
    requires p <= LastPage(|rows|)
    requires |Head(p)| + (PageEnd(|rows|, p) - 38 * p) <= j < |PageOf(rows, siteAddress, now, p)|
    ensures KindOf(PageOf(rows, siteAddress, now, p)[j], p, j, LastPage(|rows|), |PageOf(rows, siteAddress, now, p)|, siteAddress, now)
  {
    PageFooterAt(rows, siteAddress, now, p, j);
    PageSize(rows, siteAddress, now, p);
  }

  /**
    Every draw on every page is one of three kinds, told apart by font size:
    the title (20) first on the first page and nowhere else; the footer (10)
    as the last two draws of the last page and nowhere else; and ingredient
    lines (14) at x = 10 with y a multiple of 20 in 20..760.
   */
  lemma DrawKinds(rows: seq<Row>, siteAddress: string, now: string, p: nat, j: nat)
    requires p < |Document(rows, siteAddress, now)|
    requires j < |Document(rows, siteAddress, now)[p]|
    ensures var doc := Document(rows, siteAddress, now);
      var op := doc[p][j];
      && (op.fontSize == TitleSize <==> p == 0 && j == 0)
      && (op.fontSize == TitleSize ==> op == TitleOp())
      && (op.fontSize == FooterSize <==> p == |doc| - 1 && j >= |doc[p]| - 2)
      && (op.fontSize == FooterSize ==> op == (if j == |doc[p]| - 2 then AddressOp(siteAddress) else TimeOp(now)))
      && (op.fontSize == LineSize ==> op.x == LineX && Top <= op.y <= Top + LineHeight * 37 && op.y % LineHeight == 0)
      && (op.fontSize == TitleSize || op.fontSize == FooterSize || op.fontSize == LineSize)
  {
    var doc := Document(rows, siteAddress, now);
    assert doc[p] == PageOf(rows, siteAddress, now, p);
    var h := |Head(p)|;
    var len := PageEnd(|rows|, p) - 38 * p;
    if j < h {
      TitleKind(rows, siteAddress, now, p, j);
    } else if j < h + len {
      LineKind(rows, siteAddress, now, p, j - h);
    } else {
      FooterKind(rows, siteAddress, now, p, j);
    }
  }

  /** The title is drawn exactly once, first on the first page, in size 20 at (130, 750). */
  lemma TitleOnce(rows: seq<Row>, siteAddress: string, now: string)
    ensures var doc := Document(rows, siteAddress, now);
      |doc| > 0 && |doc[0]| > 0 && doc[0][0] == TitleOp()
      && forall p, j :: 0 <= p < |doc| && 0 <= j < |doc[p]| && doc[p][j] == TitleOp() ==> p == 0 && j == 0
  {
    var doc := Document(rows, siteAddress, now);
    assert doc[0] == PageOf(rows, siteAddress, now, 0);
    forall p, j | 0 <= p < |doc| && 0 <= j < |doc[p]| && doc[p][j] == TitleOp()
      ensures p == 0 && j == 0
    {
      DrawKinds(rows, siteAddress, now, p, j);
    }
  }

  /**
    The site address (y = 30) and the download time (y = 50) are drawn once
    each, in size 10, as the last two draws of the last page, after every
    ingredient line.
   */
  lemma FooterOnce(rows: seq<Row>, siteAddress: string, now: string)
    ensures var doc := Document(rows, siteAddress, now);
      var last := doc[|doc| - 1];
      |doc| > 0 && |last| >= 2
      && last[|last| - 2..] == [AddressOp(siteAddress), TimeOp(now)]
      && forall p, j :: 0 <= p < |doc| && 0 <= j < |doc[p]| && doc[p][j].fontSize == FooterSize ==>
           p == |doc| - 1 && j >= |last| - 2
  {
    var doc := Document(rows, siteAddress, now);
    var n := |rows|;
    var last := doc[|doc| - 1];
    assert last == PageOf(rows, siteAddress, now, LastPage(n));
    assert last[|last| - 2..] == Footer(siteAddress, now);
    forall p, j | 0 <= p < |doc| && 0 <= j < |doc[p]| && doc[p][j].fontSize == FooterSize
      ensures p == |doc| - 1 && j >= |last| - 2
    {
      DrawKinds(rows, siteAddress, now, p, j);
    }
  }

  /** No rows: a single page with the title and the footer only. */
  lemma EmptyDocument(siteAddress: string, now: string)
    ensures Document([], siteAddress, now) == [[TitleOp(), AddressOp(siteAddress), TimeOp(now)]]
  {
    var doc := Document([], siteAddress, now);
    assert Lines([], 0, 0) == [];
    assert |doc| == 1;
    assert doc[0] == [TitleOp()] + [] + Footer(siteAddress, now);
    assert [TitleOp()] + [] + Footer(siteAddress, now) == [TitleOp(), AddressOp(siteAddress), TimeOp(now)];
  }

  /** When the row count is a positive multiple of 38, the last page holds only the footer. */
  lemma FooterAloneAfterFullPage(rows: seq<Row>, siteAddress: string, now: string)
    requires |rows| > 0 && |rows| % 38 == 0
    ensures var doc := Document(rows, siteAddress, now);
      doc[|doc| - 1] == [AddressOp(siteAddress), TimeOp(now)]
  {
    var n := |rows|;
    var doc := Document(rows, siteAddress, now);
    assert LastPage(n) > 0;
    assert Lines(rows, 38 * LastPage(n), n) == [];
    assert doc[|doc| - 1] == PageOf(rows, siteAddress, now, LastPage(n));
  }

  // ---------------------------------------------------------------------------
  // Numbering in reading order.
  // ---------------------------------------------------------------------------

  /** All draws of the document in page order. */
  function Flatten(pages: seq<Page>): seq<DrawOp> {
    if |pages| == 0 then [] else Flatten(pages[..|pages| - 1]) + pages[|pages| - 1]
  }

  /** The ingredient-line draws (size 14) among `ops`, in order. */
  function IngredientOps(ops: seq<DrawOp>): seq<DrawOp> {
    if |ops| == 0 then []
    else IngredientOps(ops[..|ops| - 1]) + (if ops[|ops| - 1].fontSize == LineSize then [ops[|ops| - 1]] else [])
  }

  lemma {:induction false} IngredientOpsAppend(a: seq<DrawOp>, b: seq<DrawOp>)
    ensures IngredientOps(a + b) == IngredientOps(a) + IngredientOps(b)
    decreases |b|
  {
    if |b| > 0 {
      var b' := b[..|b| - 1];
      assert (a + b)[..|a + b| - 1] == a + b';
      IngredientOpsAppend(a, b');
    } else {
      assert a + b == a;
    }
  }

  lemma {:induction false} IngredientOpsOfLines(rows: seq<Row>, lo: nat, hi: nat)
    requires lo <= hi <= |rows|
    ensures IngredientOps(Lines(rows, lo, hi)) == Lines(rows, lo, hi)
    decreases hi - lo
  {
    if lo < hi {
      var ls := Lines(rows, lo, hi);
      assert ls[..|ls| - 1] == Lines(rows, lo, hi - 1);
      IngredientOpsOfLines(rows, lo, hi - 1);
      assert ls[|ls| - 1] == LineOp(hi - 1, rows[hi - 1]);
      assert ls == ls[..|ls| - 1] + [ls[|ls| - 1]];
    }
  }

  lemma IngredientOpsOfPage(rows: seq<Row>, siteAddress: string, now: string, p: nat)
    requires p <= LastPage(|rows|)
    ensures IngredientOps(PageOf(rows, siteAddress, now, p)) == Lines(rows, 38 * p, PageEnd(|rows|, p))
  {
    var head, ls := Head(p), Lines(rows, 38 * p, PageEnd(|rows|, p));
    var tail := if p == LastPage(|rows|) then Footer(siteAddress, now) else [];
    assert PageOf(rows, siteAddress, now, p) == (head + ls) + tail;
    IngredientOpsAppend(head + ls, tail);
    IngredientOpsAppend(head, ls);
    IngredientOpsOfLines(rows, 38 * p, PageEnd(|rows|, p));
    NoIngredientOpsInHead(p);
    NoIngredientOpsInFooter(siteAddress, now);
    assert IngredientOps(tail) == [];
    assert ([] + ls) + [] == ls;
  }

  lemma NoIngredientOpsInHead(p: nat)
    ensures IngredientOps(Head(p)) == []
  {
    if p == 0 {
      assert Head(p)[..0] == [];
    }
  }

  lemma NoIngredientOpsInFooter(siteAddress: string, now: string)
    ensures IngredientOps(Footer(siteAddress, now)) == []
  {
    var f := Footer(siteAddress, now);
    assert f[..1] == [AddressOp(siteAddress)];
    assert f[..1][..0] == [];
    assert IngredientOps(f[..1]) == [];
  }

  /** Adding page `p` to the pages before it adds the page's lines to the ingredient draws. */
  lemma AppendPage(rows: seq<Row>, siteAddress: string, now: string, p: nat)
    requires p <= LastPage(|rows|)
    ensures var doc := Document(rows, siteAddress, now);
      IngredientOps(Flatten(doc[..p + 1]))
        == IngredientOps(Flatten(doc[..p])) + Lines(rows, 38 * p, PageEnd(|rows|, p))
  {
    var doc := Document(rows, siteAddress, now);
    var prev, page := doc[..p], doc[p];
    assert doc[..p + 1][..p] == prev;
    assert Flatten(doc[..p + 1]) == Flatten(prev) + page;
    IngredientOpsAppend(Flatten(prev), page);
    IngredientOpsOfPage(rows, siteAddress, now, p);
  }

  /** The full pages before page `q` hold the ingredient draws of the first `38 * q` rows. */
  lemma {:induction false} IngredientOpsOfPages(rows: seq<Row>, siteAddress: string, now: string, q: nat)
    requires q <= LastPage(|rows|)
    ensures var doc := Document(rows, siteAddress, now);
      IngredientOps(Flatten(doc[..q])) == Lines(rows, 0, 38 * q)
    decreases q
  {
    if q > 0 {
      IngredientOpsOfPages(rows, siteAddress, now, q - 1);
      AppendPage(rows, siteAddress, now, q - 1);
      LinesConcat(rows, 0, 38 * (q - 1), 38 * q);
    }
  }

  /**
    Reading the document page by page, the ingredient lines are the rows in
    order, numbered 1, 2, ... without restarting on a new page.
   */
  lemma NumberingAcrossPages(rows: seq<Row>, siteAddress: string, now: string)
    ensures var ops := IngredientOps(Flatten(Document(rows, siteAddress, now)));
      |ops| == |rows|
      && forall k :: 0 <= k < |rows| ==> ops[k].text == LineText(k + 1, rows[k])
  {
    var doc := Document(rows, siteAddress, now);
    var last := LastPage(|rows|);
    IngredientOpsOfPages(rows, siteAddress, now, last);
    AppendPage(rows, siteAddress, now, last);
    LinesConcat(rows, 0, 38 * last, |rows|);
    assert doc[..last + 1] == doc;
  }

  /** The text before the first '.' of `s` (all of `s` when it has none). */
  function BeforeDot(s: string): (t: string)
    ensures |t| <= |s| && t == s[..|t|]
  {
    if |s| == 0 || s[0] == '.' then [] else [s[0]] + BeforeDot(s[1..])
  }

  lemma {:induction false} BeforeDotOfPrefix(prefix: string, rest: string)
    requires forall i :: 0 <= i < |prefix| ==> prefix[i] != '.'
    requires |rest| > 0 && rest[0] == '.'
    ensures BeforeDot(prefix + rest) == prefix
    decreases |prefix|
  {
    if |prefix| > 0 {
      assert (prefix + rest)[1..] == prefix[1..] + rest;
      BeforeDotOfPrefix(prefix[1..], rest);
    } else {
      assert prefix + rest == rest;
    }
  }

  /** A line's number is what its text says before the first '.'. */
  lemma LineNumberReadBack(number: int, row: Row)
    requires PyInt.Printable(number)
    ensures PyInt.Parse(BeforeDot(LineText(number, row))) == Some(number)
  {
    var d := PyInt.Decimal(number);
    forall i | 0 <= i < |d|
      ensures d[i] != '.'
    {
      PyInt.DecimalAlphabet(number, i);
    }
    var rest := ". " + row.name + ", " + PyInt.Decimal(row.total) + " " + row.unit + ".";
    assert LineText(number, row) == d + rest;
    BeforeDotOfPrefix(d, rest);
    PyInt.DecimalRoundTrip(number);
  }
}

=== FILE: links.dfy ===
/**
  The three link tables between a user and a target: `Subscribe` (user to
  author), `Favorite` and `ShoppingCart` (user to recipe). A table is the
  sequence of its rows. The model-level constraints are the uniqueness of
  each (user, target) pair and, for subscriptions, that nobody follows
  themselves. POST adds a link after the serializer's checks; DELETE removes
  the requester's link and answers 204 or 404 by the number of rows deleted.
 */
module Links {
  import opened Common

  /** One row: `user` is linked to `target` (an author or a recipe). */
  datatype Pair = Pair(user: UserId, target: nat)

  type Table = seq<Pair>

  /** The unique constraint on (user, target). */
  predicate Unique(t: Table) {
    forall i, j :: 0 <= i < j < |t| ==> t[i] != t[j]
  }

  /** The check constraint of `Subscribe`: author differs from user. */
  predicate NoSelf(t: Table) {
    forall i :: 0 <= i < |t| ==> t[i].user != t[i].target
  }

  predicate Linked(t: Table, user: UserId, target: nat) {
    Pair(user, target) in t
  }

  // Messages of the validation errors and of the 404 answers.

  const SelfSubscription: string := "Вы не можете подписаться на себя самого"
  const AlreadySubscribed: string := "Вы уже подписаны на этого пользователя"
  const AlreadyFavorite: string := "Вы уже добавили этот рецепт в избранное"
  const AlreadyInCart: string := "Вы уже добавили этот рецепт в список покупок"
  const SubscriptionMissing: string := "Подписка не найдена"
  const FavoriteMissing: string := "В избранном рецепта нет"
  const CartEntryMissing: string := "В корзине рецепта нет"

  // ---------------------------------------------------------------------------
  // POST: add a link.
  // ---------------------------------------------------------------------------

  /**
    `POST /users/{author}/subscribe/`: the author is looked up first (404),
    then following oneself and following twice are refused (400); otherwise
    one row is added.
   */
  function Subscribe(users: set<UserId>, subs: Table, user: UserId, author: UserId): (r: Result<Table>)
    ensures r.Ok? <==> author in users && user != author && !Linked(subs, user, author)
    ensures r.Ok? ==> r.value == subs + [Pair(user, author)]
    ensures author !in users ==> r == Err(NotFound(NotFoundDetail))
    ensures author in users && user == author ==> r == Err(BadRequest(SelfSubscription))
    ensures author in users && user != author && Linked(subs, user, author) ==>
      r == Err(BadRequest(AlreadySubscribed))
  {
    if author !in users then Err(NotFound(NotFoundDetail))
    else if user == author then Err(BadRequest(SelfSubscription))
    else if Linked(subs, user, author) then Err(BadRequest(AlreadySubscribed))
    else Ok(subs + [Pair(user, author)])
  }

  /**
    `POST /recipes/{recipe}/favorite/` and `.../shopping_cart/`: the
    serializer's `validate` refuses an existing link first (400), then
    `create` looks the recipe up (404) and adds one row.
   */
  function AddRecipeLink(recipes: set<RecipeId>, t: Table, user: UserId, recipe: RecipeId, duplicate: string): (r: Result<Table>)
    ensures r.Ok? <==> !Linked(t, user, recipe) && recipe in recipes
    ensures r.Ok? ==> r.value == t + [Pair(user, recipe)]
    ensures Linked(t, user, recipe) ==> r == Err(BadRequest(duplicate))
    ensures !Linked(t, user, recipe) && recipe !in recipes ==> r == Err(NotFound(NotFoundDetail))
  {
    if Linked(t, user, recipe) then Err(BadRequest(duplicate))
    else if recipe !in recipes then Err(NotFound(NotFoundDetail))
    else Ok(t + [Pair(user, recipe)])
  }

  function AddFavorite(recipes: set<RecipeId>, favorites: Table, user: UserId, recipe: RecipeId): Result<Table> {
    AddRecipeLink(recipes, favorites, user, recipe, AlreadyFavorite)
  }

  function AddToCart(recipes: set<RecipeId>, cart: Table, user: UserId, recipe: RecipeId): Result<Table> {
    AddRecipeLink(recipes, cart, user, recipe, AlreadyInCart)
  }

  /** Adding never breaks the unique constraint, and subscribing never breaks the check constraint. */
  lemma AddKeepsConstraints(users: set<UserId>, recipes: set<RecipeId>, t: Table, user: UserId, target: nat, duplicate: string)
    requires Unique(t)
    ensures Subscribe(users, t, user, target).Ok? ==> Unique(Subscribe(users, t, user, target).value)
    ensures NoSelf(t) && Subscribe(users, t, user, target).Ok? ==> NoSelf(Subscribe(users, t, user, target).value)
    ensures AddRecipeLink(recipes, t, user, target, duplicate).Ok? ==>
      Unique(AddRecipeLink(recipes, t, user, target, duplicate).value)
  {
  }

  // ---------------------------------------------------------------------------
  // DELETE: remove a link.
  // ---------------------------------------------------------------------------

  /** `filter(user=..., target=...).delete()`: every row equal to `p` removed, the rest in order. */
  function Remove(t: Table, p: Pair): (r: Table)
    ensures forall x :: x in r <==> x in t && x != p
    ensures |r| <= |t|
    ensures |r| < |t| <==> p in t
  {
    if |t| == 0 then []
    else if t[|t| - 1] == p then Remove(t[..|t| - 1], p)
    else Remove(t[..|t| - 1], p) + [t[|t| - 1]]
  }

  /** The answer to a DELETE: the table afterwards, the status and the error detail, if any. */
  datatype Deletion = Deletion(table: Table, status: int, detail: Option<string>)

  /**
    The DELETE rule: delete the requester's link to the target, then answer
    204 when a row was deleted and 404 with `missing` otherwise. This is the
    DELETE branch of `subscribe`, and what the branches of `favorite` and
    `shopping_cart` do once their lookup is `recipe_id=pk`.
   */
  function DeleteLink(t: Table, user: UserId, target: nat, missing: string): (d: Deletion)
    ensures d.status == NoContent204 <==> Linked(t, user, target)
    ensures d.status == NoContent204 || d.status == NotFound404
    ensures d.status == NotFound404 ==> d.detail == Some(missing) && d.table == t
    ensures d.status == NoContent204 ==> d.detail == None
    ensures !Linked(d.table, user, target)
    ensures forall u: UserId, x: nat :: (u, x) != (user, target) ==> (Linked(d.table, u, x) <==> Linked(t, u, x))
  {
    var r := Remove(t, Pair(user, target));
    if |t| - |r| > 0 then Deletion(r, NoContent204, None) else Deletion(t, NotFound404, Some(missing))
  }

  function Unsubscribe(subs: Table, user: UserId, author: UserId): Deletion {
    DeleteLink(subs, user, author, SubscriptionMissing)
  }

  /** The detail of the error Django raises for an unsliced QuerySet as the value of an exact lookup. */
  const UnslicedQuerySet: string := "ValueError"

  /**
    The DELETE branch of `favorite` and `shopping_cart` as written: the
    recipe is passed as `Recipe.objects.filter(pk=pk)`, an unsliced
    QuerySet, to the exact lookup `recipe=`. Django refuses that before any
    row is deleted, so the answer is a server error and every link stays,
    whether the recipe exists or not.
   */
  function DeleteRecipeLinkAsWritten(t: Table, user: UserId, recipe: RecipeId): (d: Deletion)
    ensures d.status == ServerError500 && d.detail == Some(UnslicedQuerySet)
    ensures forall u: UserId, x: nat :: Linked(d.table, u, x) <==> Linked(t, u, x)
  {
    Deletion(t, ServerError500, Some(UnslicedQuerySet))
  }

  /**
    The favorite or cart entry a requester asks to delete is still there
    after the DELETE as written, which answers 500; with the lookup
    `recipe_id=pk` the same request answers 204 and the entry is gone.
   */
  lemma LinkedRecipeNotRemoved(t: Table, user: UserId, recipe: RecipeId)
    requires Linked(t, user, recipe)
    ensures Linked(DeleteRecipeLinkAsWritten(t, user, recipe).table, user, recipe)
    ensures DeleteRecipeLinkAsWritten(t, user, recipe).status == ServerError500
    ensures RemoveFavorite(t, user, recipe).status == NoContent204
    ensures !Linked(RemoveFavorite(t, user, recipe).table, user, recipe)
    ensures RemoveFromCart(t, user, recipe).status == NoContent204
    ensures !Linked(RemoveFromCart(t, user, recipe).table, user, recipe)
  {
  }

  /** The favorite DELETE with the lookup `recipe_id=pk`. */
  function RemoveFavorite(favorites: Table, user: UserId, recipe: RecipeId): Deletion {
    DeleteLink(favorites, user, recipe, FavoriteMissing)
  }

  /** The cart DELETE with the lookup `recipe_id=pk`. */
  function RemoveFromCart(cart: Table, user: UserId, recipe: RecipeId): Deletion {
    DeleteLink(cart, user, recipe, CartEntryMissing)
  }

  /** Removing keeps the rows that stay in their order, so both constraints survive. */
  lemma {:induction false} RemoveKeepsConstraints(t: Table, p: Pair)
    ensures Unique(t) ==> Unique(Remove(t, p))
    ensures NoSelf(t) ==> NoSelf(Remove(t, p))
  {
    if |t| > 0 {
      var pre := t[..|t| - 1];
      RemoveKeepsConstraints(pre, p);
      if Unique(t) {
        assert Unique(pre);
        assert t[|t| - 1] !in pre;
      }
    }
  }

  /** Under the unique constraint a DELETE that succeeds removes exactly one row. */
  lemma {:induction false} RemoveOne(t: Table, p: Pair)
    requires Unique(t) && p in t
    ensures |Remove(t, p)| == |t| - 1
  {
    var pre := t[..|t| - 1];
    assert Unique(pre);
    if t[|t| - 1] == p {
      assert p !in pre;
      RemoveAbsent(pre, p);
    } else {
      assert p in pre;
      RemoveOne(pre, p);
    }
  }

  /** Removing a row that is not there changes nothing. */
  lemma {:induction false} RemoveAbsent(t: Table, p: Pair)
    requires p !in t
    ensures Remove(t, p) == t
  {
    if |t| > 0 {
      var pre := t[..|t| - 1];
      RemoveAbsent(pre, p);
      assert pre + [t[|t| - 1]] == t;
    }
  }

  /** Following and then unfollowing restores the table. */
  lemma SubscribeThenUnsubscribe(users: set<UserId>, subs: Table, user: UserId, author: UserId)
    requires Subscribe(users, subs, user, author).Ok?
    ensures Unsubscribe(Subscribe(users, subs, user, author).value, user, author) == Deletion(subs, NoContent204, None)
  {
    var t := subs + [Pair(user, author)];
    assert t[..|t| - 1] == subs;
    RemoveAbsent(subs, Pair(user, author));
  }

  /**
    Adding a recipe link and then deleting it restores the table with the
    corrected DELETE. As written, the DELETE answers 500 and the new link
    stays.
   */
  lemma AddThenRemoveRecipeLink(recipes: set<RecipeId>, t: Table, user: UserId, recipe: RecipeId, duplicate: string, missing: string)
    requires AddRecipeLink(recipes, t, user, recipe, duplicate).Ok?
    ensures DeleteLink(AddRecipeLink(recipes, t, user, recipe, duplicate).value, user, recipe, missing)
      == Deletion(t, NoContent204, None)
    ensures var added := AddRecipeLink(recipes, t, user, recipe, duplicate).value;
      DeleteRecipeLinkAsWritten(added, user, recipe) == Deletion(added, ServerError500, Some(UnslicedQuerySet))
      && Linked(added, user, recipe) && !Linked(t, user, recipe)
  {
    var t' := t + [Pair(user, recipe)];
    assert t'[..|t'| - 1] == t;
    RemoveAbsent(t, Pair(user, recipe));
  }

  /**
    A second DELETE of the same link answers 404 and changes nothing. As
    written, the favorite and cart DELETE answer 500 both times and leave the
    table as it was.
   */
  lemma DeleteTwice(t: Table, user: UserId, target: nat, missing: string)
    ensures var d := DeleteLink(t, user, target, missing);
      DeleteLink(d.table, user, target, missing) == Deletion(d.table, NotFound404, Some(missing))
    ensures var d := DeleteRecipeLinkAsWritten(t, user, target);
      DeleteRecipeLinkAsWritten(d.table, user, target) == Deletion(t, ServerError500, Some(UnslicedQuerySet))
  {
  }
}

=== FILE: models.dfy ===
/**
  Record shapes of the `recipes` and `users` apps, the field bounds their
  model declarations promise, and the `__str__` labels the admin console
  shows.
 */
module Models {
  import opened Common
  import PyInt
  import FieldValidators

  datatype Ingredient = Ingredient(id: IngredientId, name: string, measurementUnit: string)

  datatype Tag = Tag(id: TagId, name: string, color: string, slug: string)

  datatype Recipe = Recipe(
    id: RecipeId,
    author: UserId,
    name: string,
    text: string,
    cookingTime: int,
    tags: set<TagId>
  )

  /** The through-table row linking a recipe to one ingredient with an amount. */
  datatype RecipeIngredient = RecipeIngredient(recipe: RecipeId, ingredient: IngredientId, amount: int)

  datatype User = User(
    id: UserId,
    email: string,
    username: string,
    firstName: string,
    lastName: string,
    password: string
  )

  // Declared field bounds.

  const CookingTimeMin: int := 1
  const CookingTimeMax: int := 1000
  const AmountMin: int := 1
  const AmountMax: int := 32767

  predicate CookingTimeInRange(n: int) {
    CookingTimeMin <= n <= CookingTimeMax
  }

  predicate AmountInRange(n: int) {
    AmountMin <= n <= AmountMax
  }

  /**
    The corrected field validators admit exactly the ranges the model fields
    declare, so a value they pass fits the column's validators.
   */
  lemma CorrectedValidatorsMatchDeclaredBounds(data: FieldValidators.Data)
    ensures FieldValidators.CookingTimeChecked(data).Ok? <==>
      FieldValidators.PyIntOf(data).Converted? && CookingTimeInRange(FieldValidators.PyIntOf(data).n)
    ensures FieldValidators.AmountChecked(data).Ok? <==>
      FieldValidators.PyIntOf(data).Converted? && AmountInRange(FieldValidators.PyIntOf(data).n)
  {
  }

  // `__str__` labels.

  /** `User.__str__`: `"{username} ({email})"`. */
  function UserLabel(u: User): string {
    u.username + " (" + u.email + ")"
  }

  /** `RecipeIngredient.__str__`: `"{recipe} - {ingredient}, {amount}"`, where a recipe and an ingredient print as their names. */
  function RecipeIngredientLabel(recipe: Recipe, ingredient: Ingredient, amount: int): string {
    recipe.name + " - " + ingredient.name + ", " + PyInt.Decimal(amount)
  }

  /**
    For users whose usernames pass the username validator the label is
    one-to-one: it determines both the username and the e-mail address.
   */
  lemma {:induction false} UserLabelInjective(isWord: char -> bool, u1: User, u2: User)
    requires FieldValidators.PythonWordClass(isWord)
    requires FieldValidators.ValidateUsername(isWord, u1.username).Ok?
    requires FieldValidators.ValidateUsername(isWord, u2.username).Ok?
    requires UserLabel(u1) == UserLabel(u2)
    ensures u1.username == u2.username && u1.email == u2.email
  {
    var a, c := u1.username, u2.username;
    var shown := UserLabel(u1);
    if |a| < |c| {
      assert shown[|a|] == ' ';
      assert UserLabel(u2)[|a|] == c[|a|];
      FieldValidators.AcceptedUsernameAlphabet(isWord, c, |a|);
      assert false;
    } else if |c| < |a| {
      assert UserLabel(u2)[|c|] == ' ';
      assert shown[|c|] == a[|c|];
      FieldValidators.AcceptedUsernameAlphabet(isWord, a, |c|);
      assert false;
    }
    assert a == shown[..|a|] == c;
    var e1, e2 := u1.email, u2.email;
    assert e1 == shown[|a| + 2..|shown| - 1];
    assert e2 == UserLabel(u2)[|c| + 2..|shown| - 1];
  }

  /** The part of `s` after its last space (all of `s` when it has none). */
  function LastWord(s: string): (w: string)
    ensures |w| <= |s| && w == s[|s| - |w|..]
    ensures forall i :: 0 <= i < |w| ==> w[i] != ' '
  {
    if |s| == 0 || s[|s| - 1] == ' ' then [] else LastWord(s[..|s| - 1]) + [s[|s| - 1]]
  }

  lemma {:induction false} LastWordAfterSpace(prefix: string, word: string)
    requires forall i :: 0 <= i < |word| ==> word[i] != ' '
    ensures LastWord(prefix + " " + word) == word
    decreases |word|
  {
    var s := prefix + " " + word;
    if |word| > 0 {
      assert s[..|s| - 1] == prefix + " " + word[..|word| - 1];
      LastWordAfterSpace(prefix, word[..|word| - 1]);
    } else {
      assert s[|s| - 1] == ' ';
    }
  }

  /** The amount can be read back from the end of a recipe-ingredient label. */
  lemma AmountFromLabel(recipe: Recipe, ingredient: Ingredient, amount: int)
    requires PyInt.Printable(amount)
    ensures PyInt.Parse(LastWord(RecipeIngredientLabel(recipe, ingredient, amount))) == Some(amount)
  {
    var d := PyInt.Decimal(amount);
    forall i | 0 <= i < |d|
      ensures d[i] != ' '
    {
      PyInt.DecimalAlphabet(amount, i);
    }
    assert RecipeIngredientLabel(recipe, ingredient, amount) == recipe.name + " - " + ingredient.name + "," + " " + d;
    LastWordAfterSpace(recipe.name + " - " + ingredient.name + ",", d);
    PyInt.DecimalRoundTrip(amount);
  }
}

=== FILE: pyint.dfy ===
/**
  Python's conversions between integers and decimal text, as the backend
  relies on them: `int(text)` (used by the numeric field validators and by
  `recipes_limit`) and `str(n)` / f-string interpolation of an integer (used
  in the shopping-list lines and in `__str__` of a recipe ingredient).
 */
module PyInt {
  import opened Common

  /** The ASCII whitespace characters `str.strip()` removes. */
  predicate IsSpace(c: char) {
    c == ' ' || c == '\t' || c == '\n' || c == '\r' || c == '\U{0B}' || c == '\U{0C}'
      || ('\U{1C}' <= c <= '\U{1F}')
  }

  predicate IsDigit(c: char) {
    '0' <= c <= '9'
  }

  function DigitValue(c: char): nat
    requires IsDigit(c)
  {
    (c as int) - ('0' as int)
  }

  function DigitChar(d: nat): (c: char)
    requires d < 10
    ensures IsDigit(c) && DigitValue(c) == d
  {
    (('0' as int) + d) as char
  }

  /** `s` with leading whitespace removed. */
  function TrimStart(s: string): (t: string)
    ensures |t| <= |s| && t == s[|s| - |t|..]
    ensures |t| > 0 ==> !IsSpace(t[0])
  {
    if |s| > 0 && IsSpace(s[0]) then TrimStart(s[1..]) else s
  }

  /** `s` with trailing whitespace removed. */
  function TrimEnd(s: string): (t: string)
    ensures |t| <= |s| && t == s[..|t|]
    ensures |t| > 0 ==> !IsSpace(t[|t| - 1])
  {
    if |s| > 0 && IsSpace(s[|s| - 1]) then TrimEnd(s[..|s| - 1]) else s
  }

  /** Python's `str.strip()` restricted to ASCII whitespace. */
  function Strip(s: string): string {
    TrimEnd(TrimStart(s))
  }

  /**
    Leading trimming of `s + more`: when the leading whitespace ends inside
    `s`, the appended text is kept whole; when `s` is all whitespace, it is
    the trimming of `more`.
   */
  lemma {:induction false} TrimStartAppend(s: string, more: string)
    ensures TrimStart(s) != "" ==> TrimStart(s + more) == TrimStart(s) + more
    ensures TrimStart(s) == "" ==> TrimStart(s + more) == TrimStart(more)
  {
    if |s| == 0 {
      assert s + more == more;
    } else if IsSpace(s[0]) {
      assert (s + more)[1..] == s[1..] + more;
      TrimStartAppend(s[1..], more);
    }
  }

  lemma TrimStartSpace(c: char, s: string)
    requires IsSpace(c)
    ensures TrimStart([c] + s) == TrimStart(s)
  {
    assert ([c] + s)[1..] == s;
  }

  lemma TrimEndSpace(s: string, c: char)
    requires IsSpace(c)
    ensures TrimEnd(s + [c]) == TrimEnd(s)
  {
    assert (s + [c])[..|s|] == s;
  }

  /** Appending text never shortens what trailing trimming keeps of `s`. */
  lemma {:induction false} TrimEndPrefix(s: string, more: string)
    ensures TrimEnd(s) <= TrimEnd(s + more)
    decreases |more|
  {
    if |more| == 0 {
      assert s + more == s;
    } else if IsSpace(more[|more| - 1]) {
      assert (s + more)[..|s + more| - 1] == s + more[..|more| - 1];
      TrimEndPrefix(s, more[..|more| - 1]);
    }
  }

  /** A text that strips to something non-empty strips to a prefix of what any extension of it strips to. */
  lemma StripPrefix(s: string, more: string)
    requires Strip(s) != ""
    ensures Strip(s) <= Strip(s + more)
  {
    TrimStartAppend(s, more);
    TrimEndPrefix(TrimStart(s), more);
  }

  /**
    The digit part Python's `int()` accepts in base 10: digits, with single
    underscores allowed between two digits.
   */
  predicate WellFormedDigits(s: string) {
    && |s| > 0
    && IsDigit(s[0])
    && IsDigit(s[|s| - 1])
    && (forall i :: 0 <= i < |s| ==> IsDigit(s[i]) || s[i] == '_')
    && (forall i :: 0 <= i < |s| - 1 ==> s[i] == '_' ==> s[i + 1] != '_')
  }

  /** The number a run of digits and underscores denotes, read left to right. */
  function DigitsValue(s: string): nat
    requires forall i :: 0 <= i < |s| ==> IsDigit(s[i]) || s[i] == '_'
  {
    if |s| == 0 then 0
    else if s[|s| - 1] == '_' then DigitsValue(s[..|s| - 1])
    else 10 * DigitsValue(s[..|s| - 1]) + DigitValue(s[|s| - 1])
  }

  /**
    CPython's default limit on the number of decimal digits `int()` reads
    from text and `str()` writes for an integer; beyond it both raise
    `ValueError`.
   */
  const MaxStrDigits: nat := 4300

  /** The number of digits in a string, underscores and other characters not counted. */
  function DigitCount(s: string): (k: nat)
    ensures k <= |s|
  {
    if |s| == 0 then 0 else DigitCount(s[..|s| - 1]) + (if IsDigit(s[|s| - 1]) then 1 else 0)
  }

  /**
    `int(s)` for a string: `None` where Python raises `ValueError`, that is
    for text that is not an optionally signed run of digits and single
    underscores, and for one of more than `MaxStrDigits` digits.
   */
  function Parse(s: string): Option<int> {
    var t := Strip(s);
    var negative := |t| > 0 && t[0] == '-';
    var body := if |t| > 0 && (t[0] == '-' || t[0] == '+') then t[1..] else t;
    if WellFormedDigits(body) && DigitCount(body) <= MaxStrDigits then
      var magnitude: int := DigitsValue(body);
      Some(if negative then -magnitude else magnitude)
    else
      None
  }

  /** The decimal digits of a natural number, without leading zeros. */
  function Digits(n: nat): (s: string)
    ensures |s| > 0 && forall i :: 0 <= i < |s| ==> IsDigit(s[i])
    ensures n > 0 ==> s[0] != '0'
  {
    if n < 10 then [DigitChar(n)] else Digits(n / 10) + [DigitChar(n % 10)]
  }

  /** `str(n)`: an optional minus sign followed by the digits of `|n|`. */
  function Decimal(n: int): (s: string)
    ensures |s| > 0 && IsDigit(s[|s| - 1])
    ensures forall i :: 0 <= i < |s| ==> IsDigit(s[i]) || (i == 0 && s[i] == '-')
  {
    if n < 0 then "-" + Digits(-n) else Digits(n)
  }

  /** `str(n)` succeeds: `|n|` has at most `MaxStrDigits` digits. */
  predicate Printable(n: int) {
    |Digits(if n < 0 then -n else n)| <= MaxStrDigits
  }

  function Pow10(k: nat): (p: nat)
    ensures p >= 1
  {
    if k == 0 then 1 else 10 * Pow10(k - 1)
  }

  /** A number below `10^k` has at most `k` digits. */
  lemma {:induction false} DigitsLength(n: nat, k: nat)
    requires 1 <= k && n < Pow10(k)
    ensures |Digits(n)| <= k
    decreases k
  {
    if n >= 10 {
      assert Pow10(1) == 10;
      DigitsLength(n / 10, k - 1);
    }
  }

  /** In a string of digits alone, every character counts. */
  lemma {:induction false} DigitCountOfDigits(s: string)
    requires forall i :: 0 <= i < |s| ==> IsDigit(s[i])
    ensures DigitCount(s) == |s|
  {
    if |s| > 0 {
      DigitCountOfDigits(s[..|s| - 1]);
    }
  }

  /** Text of more digits than the limit is refused, however well formed. */
  lemma {:induction false} TooManyDigitsRefused(s: string)
    requires forall i :: 0 <= i < |s| ==> IsDigit(s[i])
    requires |s| > MaxStrDigits
    ensures Parse(s) == None
  {
    if |s| > 0 && IsDigit(s[0]) && IsDigit(s[|s| - 1]) {
      StripOfTrimmed(s);
      DigitCountOfDigits(s);
    }
  }

  lemma {:induction false} DigitsValueOfDigits(n: nat)
    ensures DigitsValue(Digits(n)) == n
    decreases n
  {
    var s := Digits(n);
    if n >= 10 {
      DigitsValueOfDigits(n / 10);
      assert s[..|s| - 1] == Digits(n / 10);
    }
  }

  lemma StripOfTrimmed(s: string)
    requires |s| > 0 && !IsSpace(s[0]) && !IsSpace(s[|s| - 1])
    ensures Strip(s) == s
  {
  }

  /** Reading back what `str(n)` wrote gives `n`: `int(str(n)) == n`. */
  lemma DecimalRoundTrip(n: int)
    requires Printable(n)
    ensures Parse(Decimal(n)) == Some(n)
  {
    var s := Decimal(n);
    StripOfTrimmed(s);
    var m: nat := if n < 0 then -n else n;
    DigitsValueOfDigits(m);
    DigitCountOfDigits(Digits(m));
    if n < 0 {
      assert s[1..] == Digits(m);
    }
  }

  /** Every signed 64-bit integer is printable: it has at most 19 digits. */
  lemma SmallPrintable(n: int)
    requires -0x8000_0000_0000_0000 <= n <= 0x7FFF_FFFF_FFFF_FFFF
    ensures Printable(n)
  {
    assert Pow10(10) == 10_000_000_000;
    assert Pow10(19) == 10_000_000_000_000_000_000;
    DigitsLength(if n < 0 then -n else n, 19);
  }

  /** A decimal never contains whitespace, '.', ',' or '_'. */
  lemma DecimalAlphabet(n: int, i: int)
    requires 0 <= i < |Decimal(n)|
    ensures !IsSpace(Decimal(n)[i]) && Decimal(n)[i] !in {'.', ',', '_'}
  {
  }
}

=== FILE: recipes.dfy ===
/**
  Writing a recipe through `RecipeCreateSerializer`: the duplicate check on
  the submitted ingredients, `set_ingredients`, `create` and `update`. The
  recipe table is a map from id to record and the through table of
  ingredient amounts is the sequence of its rows. The serializer's writes
  are not wrapped in a transaction, so every write made before a failure
  stays.
 */
module RecipeWrites {
  import opened Common
  import opened Models

  /** One submitted ingredient: `{"id": ..., "amount": ...}` after field validation. */
  datatype Item = Item(id: IngredientId, amount: int)

  /** The tables a recipe write touches. */
  datatype Store = Store(
    recipes: map<RecipeId, Recipe>,
    rows: seq<RecipeIngredient>,
    catalog: set<IngredientId>
  )

  const DuplicateIngredients: string := "Ингредиенты не должны дублироваться"
  /** `validated_data.pop('tags')` on a request without tags raises `KeyError`. */
  const MissingTags: string := "KeyError: 'tags'"
  /** A write that breaks a column's check constraint raises `IntegrityError`. */
  const ColumnCheckFailed: string := "IntegrityError"

  /**
    The check constraint the database puts on a `PositiveSmallIntegerField`
    column, such as `cooking_time` and `amount`: the value is not negative.
   */
  predicate FitsColumn(n: int) {
    n >= 0
  }

  /** Every submitted amount fits its column. */
  predicate AmountsFit(items: seq<Item>) {
    forall i :: 0 <= i < |items| ==> FitsColumn(items[i].amount)
  }

  /** Every submitted ingredient id is in the catalog. */
  predicate KnownIds(catalog: set<IngredientId>, items: seq<Item>) {
    forall i :: 0 <= i < |items| ==> items[i].id in catalog
  }

  predicate DistinctIds(items: seq<Item>) {
    forall i, j :: 0 <= i < j < |items| ==> items[i].id != items[j].id
  }

  /**
    `validate_ingredients`: walk the items keeping the ids seen so far and
    fail on the first repeated one; otherwise return the items unchanged.
   */
  method ValidateIngredients(items: seq<Item>) returns (r: Result<seq<Item>>)
    ensures r.Ok? <==> DistinctIds(items)
    ensures r.Ok? ==> r.value == items
    ensures r.Err? ==> r == Err(BadRequest(DuplicateIngredients))
  {
    var seen: set<IngredientId> := {};
    var i := 0;
    while i < |items|
      invariant i <= |items|
      invariant seen == set j | 0 <= j < i :: items[j].id
      invariant DistinctIds(items[..i])
    {
      if items[i].id in seen {
        return Err(BadRequest(DuplicateIngredients));
      }
      seen := seen + {items[i].id};
      i := i + 1;
    }
    assert items[..i] == items;
    return Ok(items);
  }

  /** The through-table rows `set_ingredients` builds for `recipe`, one per item, in order. */
  function RowsFor(recipe: RecipeId, items: seq<Item>): (rs: seq<RecipeIngredient>)
    ensures |rs| == |items|
  {
    seq(|items|, i requires 0 <= i < |items| => RecipeIngredient(recipe, items[i].id, items[i].amount))
  }

  /** The rows of `recipe` in a through table, in table order. */
  function RowsOf(rows: seq<RecipeIngredient>, recipe: RecipeId): (rs: seq<RecipeIngredient>)
    ensures forall x :: x in rs <==> x in rows && x.recipe == recipe
    ensures |rs| <= |rows|
  {
    if |rows| == 0 then []
    else RowsOf(rows[..|rows| - 1], recipe) + (if rows[|rows| - 1].recipe == recipe then [rows[|rows| - 1]] else [])
  }

  /** `RecipeIngredient.objects.filter(recipe=recipe).delete()`: the rows of other recipes, in order. */
  function DropRecipe(rows: seq<RecipeIngredient>, recipe: RecipeId): (rs: seq<RecipeIngredient>)
    ensures forall x :: x in rs <==> x in rows && x.recipe != recipe
  {
    if |rows| == 0 then []
    else DropRecipe(rows[..|rows| - 1], recipe) + (if rows[|rows| - 1].recipe != recipe then [rows[|rows| - 1]] else [])
  }

  /**
    `set_ingredients`: every id is looked up (404 on the first unknown one)
    while the rows are built; only then does the single `bulk_create` add
    them all. The insert is refused as a whole when an amount breaks the
    column's check. So it is all or nothing.
   */
  method SetIngredients(catalog: set<IngredientId>, recipe: RecipeId, items: seq<Item>, rows: seq<RecipeIngredient>)
    returns (r: Result<seq<RecipeIngredient>>)
    ensures r.Ok? <==> KnownIds(catalog, items) && AmountsFit(items)
    ensures r.Ok? ==> r.value == rows + RowsFor(recipe, items)
    ensures !KnownIds(catalog, items) ==> r == Err(NotFound(NotFoundDetail))
    ensures KnownIds(catalog, items) && !AmountsFit(items) ==> r == Err(ServerError(ColumnCheckFailed))
  {
    var built: seq<RecipeIngredient> := [];
    var i := 0;
    while i < |items|
      invariant i <= |items|
      invariant forall j :: 0 <= j < i ==> items[j].id in catalog
      invariant built == RowsFor(recipe, items[..i])
    {
      if items[i].id !in catalog {
        return Err(NotFound(NotFoundDetail));
      }
      built := built + [RecipeIngredient(recipe, items[i].id, items[i].amount)];
      i := i + 1;
    }
    assert items[..i] == items;
    if !AmountsFit(items) {
      return Err(ServerError(ColumnCheckFailed));
    }
    return Ok(rows + built);
  }

  /** The fields of a create request, after field validation. */
  datatype RecipeData = RecipeData(name: string, text: string, cookingTime: int, tags: seq<TagId>, ingredients: seq<Item>)

  /** What a write leaves in the tables, and the answer. */
  datatype Outcome = Outcome(store: Store, result: Result<RecipeId>)

  /**
    `POST /recipes/`: validate the ingredients, create the recipe with the
    requester as author and exactly the submitted tags, then set its
    ingredients. A negative cooking time breaks the column check, so no
    recipe row is created. An unknown ingredient (404) or a negative amount
    (500) fails after the recipe row was already created; it then has no
    ingredient rows. `newId` is the id the database assigns.
   */
  method Create(s: Store, author: UserId, data: RecipeData, newId: RecipeId) returns (o: Outcome)
    requires newId !in s.recipes
    ensures o.result.Ok? <==>
      && DistinctIds(data.ingredients)
      && FitsColumn(data.cookingTime)
      && KnownIds(s.catalog, data.ingredients)
      && AmountsFit(data.ingredients)
    ensures !DistinctIds(data.ingredients) ==> o == Outcome(s, Err(BadRequest(DuplicateIngredients)))
    ensures DistinctIds(data.ingredients) && !FitsColumn(data.cookingTime) ==>
      o == Outcome(s, Err(ServerError(ColumnCheckFailed)))
    ensures DistinctIds(data.ingredients) && FitsColumn(data.cookingTime) ==>
      && o.store.recipes == s.recipes[newId := Recipe(newId, author, data.name, data.text, data.cookingTime, set t | t in data.tags)]
      && o.store.catalog == s.catalog
    ensures o.result.Ok? ==> o.result.value == newId && o.store.rows == s.rows + RowsFor(newId, data.ingredients)
    ensures DistinctIds(data.ingredients) && FitsColumn(data.cookingTime) && !KnownIds(s.catalog, data.ingredients) ==>
      o.result == Err(NotFound(NotFoundDetail)) && o.store.rows == s.rows
    ensures DistinctIds(data.ingredients) && FitsColumn(data.cookingTime) && KnownIds(s.catalog, data.ingredients) && !AmountsFit(data.ingredients) ==>
      o.result == Err(ServerError(ColumnCheckFailed)) && o.store.rows == s.rows
  {
    var checked := ValidateIngredients(data.ingredients);
    if checked.Err? {
      return Outcome(s, Err(checked.failure));
    }
    if !FitsColumn(data.cookingTime) {
      return Outcome(s, Err(ServerError(ColumnCheckFailed)));
    }
    var recipe := Recipe(newId, author, data.name, data.text, data.cookingTime, set t | t in data.tags);
    var s1 := s.(recipes := s.recipes[newId := recipe]);
    var rows := SetIngredients(s1.catalog, newId, data.ingredients, s1.rows);
    if rows.Err? {
      return Outcome(s1, Err(rows.failure));
    }
    return Outcome(s1.(rows := rows.value), Ok(newId));
  }

  /** The fields of a partial update: each may be left out of the request. */
  datatype Patch = Patch(
    name: Option<string>,
    text: Option<string>,
    cookingTime: Option<int>,
    tags: Option<seq<TagId>>,
    ingredients: Option<seq<Item>>
  )

  /** `super().update(...)` with `author` from the view: the fields present are overwritten. */
  function Patched(r: Recipe, author: UserId, p: Patch, tags: set<TagId>): (r': Recipe)
    ensures r'.id == r.id && r'.author == author && r'.tags == tags
    ensures r'.name == (if p.name.Some? then p.name.value else r.name)
    ensures r'.text == (if p.text.Some? then p.text.value else r.text)
    ensures r'.cookingTime == (if p.cookingTime.Some? then p.cookingTime.value else r.cookingTime)
  {
    Recipe(
      r.id,
      author,
      if p.name.Some? then p.name.value else r.name,
      if p.text.Some? then p.text.value else r.text,
      if p.cookingTime.Some? then p.cookingTime.value else r.cookingTime,
      tags)
  }

  /** The ingredients `update` writes: the submitted list, or none when the key is absent. */
  function SubmittedItems(p: Patch): seq<Item> {
    if p.ingredients.Some? then p.ingredients.value else []
  }

  /** An update request that gets past every check made before the first write. */
  predicate ReachesWrites(s: Store, id: RecipeId, p: Patch) {
    && id in s.recipes
    && (p.ingredients.None? || DistinctIds(p.ingredients.value))
    && p.tags.Some?
  }

  /** The recipe table once `update` has set the recipe's tags and nothing else. */
  function Retagged(s: Store, id: RecipeId, p: Patch): map<RecipeId, Recipe>
    requires ReachesWrites(s, id, p)
  {
    s.recipes[id := s.recipes[id].(tags := set t | t in p.tags.value)]
  }

  /**
    `PATCH /recipes/{id}/`: a missing recipe answers 404; submitted
    ingredients are checked for duplicates; a request without `tags` fails
    with `KeyError` before anything is written. Otherwise all ingredient
    rows of the recipe are deleted, its tags set, its new ingredients added
    (404 on an unknown id and 500 on a negative amount, after the deletion),
    and the remaining fields overwritten with the requester as author (500
    on a negative cooking time, after the new rows were added).
   */
  method Update(s: Store, id: RecipeId, author: UserId, p: Patch) returns (o: Outcome)
    ensures id !in s.recipes ==> o == Outcome(s, Err(NotFound(NotFoundDetail)))
    ensures id in s.recipes && p.ingredients.Some? && !DistinctIds(p.ingredients.value) ==>
      o == Outcome(s, Err(BadRequest(DuplicateIngredients)))
    ensures id in s.recipes && (p.ingredients.None? || DistinctIds(p.ingredients.value)) && p.tags.None? ==>
      o == Outcome(s, Err(ServerError(MissingTags)))
    ensures o.result.Ok? <==>
      && ReachesWrites(s, id, p)
      && KnownIds(s.catalog, SubmittedItems(p))
      && AmountsFit(SubmittedItems(p))
      && (p.cookingTime.None? || FitsColumn(p.cookingTime.value))
    ensures o.result.Ok? ==>
      && o.result.value == id
      && o.store.rows == DropRecipe(s.rows, id) + RowsFor(id, SubmittedItems(p))
      && o.store.recipes == s.recipes[id := Patched(s.recipes[id], author, p, set t | t in p.tags.value)]
      && o.store.catalog == s.catalog
    ensures ReachesWrites(s, id, p) && !KnownIds(s.catalog, SubmittedItems(p)) ==>
      o == Outcome(Store(Retagged(s, id, p), DropRecipe(s.rows, id), s.catalog), Err(NotFound(NotFoundDetail)))
    ensures ReachesWrites(s, id, p) && KnownIds(s.catalog, SubmittedItems(p)) && !AmountsFit(SubmittedItems(p)) ==>
      o == Outcome(Store(Retagged(s, id, p), DropRecipe(s.rows, id), s.catalog), Err(ServerError(ColumnCheckFailed)))
    ensures
      && ReachesWrites(s, id, p) && KnownIds(s.catalog, SubmittedItems(p)) && AmountsFit(SubmittedItems(p))
      && p.cookingTime.Some? && !FitsColumn(p.cookingTime.value) ==>
      o == Outcome(
        Store(Retagged(s, id, p), DropRecipe(s.rows, id) + RowsFor(id, SubmittedItems(p)), s.catalog),
        Err(ServerError(ColumnCheckFailed)))
  {
    if id !in s.recipes {
      return Outcome(s, Err(NotFound(NotFoundDetail)));
    }
    if p.ingredients.Some? {
      var checked := ValidateIngredients(p.ingredients.value);
      if checked.Err? {
        return Outcome(s, Err(checked.failure));
      }
    }
    var items := SubmittedItems(p);
    if p.tags.None? {
      return Outcome(s, Err(ServerError(MissingTags)));
    }
    var tags := set t | t in p.tags.value;
    var recipe := s.recipes[id];
    var kept := DropRecipe(s.rows, id);
    var s1 := Store(s.recipes[id := recipe.(tags := tags)], kept, s.catalog);
    var rows := SetIngredients(s1.catalog, id, items, s1.rows);
    if rows.Err? {
      return Outcome(s1, Err(rows.failure));
    }
    var s2 := s1.(rows := rows.value);
    if p.cookingTime.Some? && !FitsColumn(p.cookingTime.value) {
      return Outcome(s2, Err(ServerError(ColumnCheckFailed)));
    }
    return Outcome(s2.(recipes := s2.recipes[id := Patched(recipe, author, p, tags)]), Ok(id));
  }

  // ---------------------------------------------------------------------------
  // What the recipe's ingredients are after a write.
  // ---------------------------------------------------------------------------

  lemma {:induction false} RowsOfAppend(a: seq<RecipeIngredient>, b: seq<RecipeIngredient>, recipe: RecipeId)
    ensures RowsOf(a + b, recipe) == RowsOf(a, recipe) + RowsOf(b, recipe)
    decreases |b|
  {
    if |b| == 0 {
      assert a + b == a;
    } else {
      var b' := b[..|b| - 1];
      assert (a + b)[..|a + b| - 1] == a + b';
      RowsOfAppend(a, b', recipe);
    }
  }

  lemma {:induction false} RowsOfFor(recipe: RecipeId, items: seq<Item>)
    ensures RowsOf(RowsFor(recipe, items), recipe) == RowsFor(recipe, items)
  {
    RowsOfAll(RowsFor(recipe, items), recipe);
  }

  /** A table whose rows all belong to `recipe` lists all of them. */
  lemma {:induction false} RowsOfAll(rows: seq<RecipeIngredient>, recipe: RecipeId)
    requires forall x :: x in rows ==> x.recipe == recipe
    ensures RowsOf(rows, recipe) == rows
  {
    if |rows| > 0 {
      var init, last := rows[..|rows| - 1], rows[|rows| - 1];
      assert rows == init + [last];
      RowsOfAll(init, recipe);
    }
  }

  /** A table with no row of `recipe` has no rows of it to list. */
  lemma {:induction false} RowsOfNone(rows: seq<RecipeIngredient>, recipe: RecipeId)
    requires forall x :: x in rows ==> x.recipe != recipe
    ensures RowsOf(rows, recipe) == []
  {
    if |rows| > 0 {
      RowsOfNone(rows[..|rows| - 1], recipe);
    }
  }

  /**
    After a successful update the recipe's ingredient rows are exactly the
    submitted items, in order; with no `ingredients` key it has none.
   */
  lemma UpdateReplacesIngredients(rows: seq<RecipeIngredient>, id: RecipeId, items: seq<Item>)
    ensures RowsOf(DropRecipe(rows, id) + RowsFor(id, items), id) == RowsFor(id, items)
    ensures RowsOf(DropRecipe(rows, id) + RowsFor(id, []), id) == []
  {
    RowsOfAppend(DropRecipe(rows, id), RowsFor(id, items), id);
    RowsOfNone(DropRecipe(rows, id), id);
    RowsOfFor(id, items);
    RowsOfAppend(DropRecipe(rows, id), RowsFor(id, []), id);
    assert RowsFor(id, []) == [];
  }

  /** An update never touches the ingredient rows of another recipe. */
  lemma {:induction false} UpdateKeepsOtherRecipes(rows: seq<RecipeIngredient>, id: RecipeId, items: seq<Item>, other: RecipeId)
    requires other != id
    ensures RowsOf(DropRecipe(rows, id) + RowsFor(id, items), other) == RowsOf(rows, other)
  {
    RowsOfAppend(DropRecipe(rows, id), RowsFor(id, items), other);
    RowsOfNone(RowsFor(id, items), other);
    RowsOfDropOther(rows, id, other);
  }

  lemma {:induction false} RowsOfDropOther(rows: seq<RecipeIngredient>, id: RecipeId, other: RecipeId)
    requires other != id
    ensures RowsOf(DropRecipe(rows, id), other) == RowsOf(rows, other)
    decreases |rows|
  {
    if |rows| > 0 {
      var pre := rows[..|rows| - 1];
      var last := rows[|rows| - 1];
      RowsOfDropOther(pre, id, other);
      var d := DropRecipe(pre, id);
      var tail := if last.recipe == other then [last] else [];
      assert RowsOf(rows, other) == RowsOf(pre, other) + tail;
      if last.recipe != id {
        assert DropRecipe(rows, id) == d + [last];
        RowsOfAppend(d, [last], other);
        assert [last][..0] == [];
        assert RowsOf([last], other) == tail;
      } else {
        assert DropRecipe(rows, id) == d;
      }
    }
  }

  /** Repeating the same update leaves the recipe with the same ingredients. */
  lemma UpdateIdempotent(rows: seq<RecipeIngredient>, id: RecipeId, items: seq<Item>)
    ensures var once := DropRecipe(rows, id) + RowsFor(id, items);
      RowsOf(DropRecipe(once, id) + RowsFor(id, items), id) == RowsOf(once, id)
  {
    var once := DropRecipe(rows, id) + RowsFor(id, items);
    UpdateReplacesIngredients(rows, id, items);
    UpdateReplacesIngredients(once, id, items);
  }

  /** A created recipe's ingredient rows are exactly the submitted items. */
  lemma CreateSetsIngredients(rows: seq<RecipeIngredient>, newId: RecipeId, items: seq<Item>)
    requires forall i :: 0 <= i < |rows| ==> rows[i].recipe != newId
    ensures RowsOf(rows + RowsFor(newId, items), newId) == RowsFor(newId, items)
  {
    RowsOfAppend(rows, RowsFor(newId, items), newId);
    RowsOfFor(newId, items);
    RowsOfNone(rows, newId);
  }
}

=== FILE: representation.dfy ===
/**
  What the read serializers show about users and recipes, as a function of
  the requester: masking of a user's contact fields for anonymous callers,
  the `is_subscribed`, `is_favorited` and `is_in_shopping_cart` flags, and
  the `recipes_limit` prefix of an author's recipes.

  Two flags are written `user.is_anonymous and ...`: for an authenticated
  caller they are always false, and for an anonymous caller the lookup that
  follows raises. Both the code as written and the evidently intended
  `user.is_authenticated and ...` are modelled.
 */
module Representation {
  import opened Common
  import opened Models
  import Links
  import PyInt

  /** A related-table lookup with the anonymous user as key raises `TypeError`. */
  const AnonymousLookup: string := "TypeError"
  /** `int(recipes_limit)` on text that is not an integer raises `ValueError`. */
  const LimitNotInteger: string := "ValueError"
  /** Slicing a queryset with a negative bound is refused. */
  const NegativeLimit: string := "Negative indexing is not supported."

  // ---------------------------------------------------------------------------
  // Link flags.
  // ---------------------------------------------------------------------------

  /**
    `get_is_subscribed` and `get_is_in_shopping_cart` as written:
    `user.is_anonymous and <lookup of the requester's link>`. An
    authenticated caller gets `False` without the lookup; for an anonymous
    caller the lookup raises: the subscription filter refuses the anonymous
    user, and the cart's related manager is called rather than filtered.
   */
  function LinkFlagAsWritten(requester: Requester, table: Links.Table, target: nat): (r: Result<bool>)
    ensures requester.Authenticated? ==> r == Ok(false)
    ensures requester.Anonymous? ==> r == Err(ServerError(AnonymousLookup))
  {
    if requester.IsAnonymous() then Err(ServerError(AnonymousLookup)) else Ok(false)
  }

  /**
    The same flags as intended: the caller is signed in and has the link,
    whether to the author (subscriptions) or to the recipe (shopping cart).
   */
  function LinkFlag(requester: Requester, table: Links.Table, target: nat): (b: bool)
    ensures b <==> requester.Authenticated? && Links.Linked(table, requester.id, target)
  {
    match requester
    case Anonymous => false
    case Authenticated(u) => Links.Linked(table, u, target)
  }

  /** As written, a linked caller is shown the flag false, while the intended flag is true. */
  lemma LinkShownAsFalse(table: Links.Table, user: UserId, target: nat)
    requires Links.Linked(table, user, target)
    ensures LinkFlagAsWritten(Authenticated(user), table, target) == Ok(false)
    ensures LinkFlag(Authenticated(user), table, target)
  {
  }

  // ---------------------------------------------------------------------------
  // Users.
  // ---------------------------------------------------------------------------

  /** The fields `UserListSerializer` outputs. */
  datatype UserView = UserView(
    email: Option<string>,
    id: UserId,
    username: Option<string>,
    firstName: string,
    lastName: string,
    isSubscribed: bool
  )

  /**
    The answer to a subscription is the author's representation; right after
    the row is added the intended flag is on, and the written one still off.
   */
  lemma SubscribeAnswerShowsFalse(users: set<UserId>, subs: Links.Table, user: UserId, author: UserId)
    requires Links.Subscribe(users, subs, user, author).Ok?
    ensures var subs' := Links.Subscribe(users, subs, user, author).value;
      LinkFlag(Authenticated(user), subs', author)
      && LinkFlagAsWritten(Authenticated(user), subs', author) == Ok(false)
  {
    var subs' := Links.Subscribe(users, subs, user, author).value;
    assert subs'[|subs'| - 1] == Links.Pair(user, author);
  }

  /**
    `UserListSerializer.to_representation` once the flag is known: the
    serializer's fields, with `email` and `username` replaced by None when
    the caller is not authenticated.
   */
  function ShowUser(requester: Requester, u: User, isSubscribed: bool): (v: UserView)
    ensures v.id == u.id && v.firstName == u.firstName && v.lastName == u.lastName
    ensures v.isSubscribed == isSubscribed
    ensures requester.Anonymous? ==> v.email.None? && v.username.None?
    ensures requester.Authenticated? ==> v.email == Some(u.email) && v.username == Some(u.username)
  {
    var masked := requester.IsAnonymous();
    UserView(
      if masked then None else Some(u.email),
      u.id,
      if masked then None else Some(u.username),
      u.firstName,
      u.lastName,
      isSubscribed)
  }

  /** The user representation as written: the flag is computed first, so an anonymous caller gets an error. */
  function UserRepresentationAsWritten(requester: Requester, subs: Links.Table, u: User): Result<UserView> {
    var flag :- LinkFlagAsWritten(requester, subs, u.id);
    Ok(ShowUser(requester, u, flag))
  }

  /** The user representation with the intended flag. */
  function UserRepresentation(requester: Requester, subs: Links.Table, u: User): UserView {
    ShowUser(requester, u, LinkFlag(requester, subs, u.id))
  }

  /**
    As written, the masking branch is never reached: an anonymous caller's
    request fails while the flag is computed, and an authenticated caller
    always sees `is_subscribed` false.
   */
  lemma AsWrittenUserRepresentation(requester: Requester, subs: Links.Table, u: User)
    ensures requester.Anonymous? ==> UserRepresentationAsWritten(requester, subs, u) == Err(ServerError(AnonymousLookup))
    ensures requester.Authenticated? ==>
      UserRepresentationAsWritten(requester, subs, u) == Ok(ShowUser(requester, u, false))
  {
  }

  /** With the intended flag the anonymous caller sees the masked record and no subscription. */
  lemma MaskedForAnonymous(subs: Links.Table, u: User)
    ensures var v := UserRepresentation(Anonymous, subs, u);
      v.email.None? && v.username.None? && !v.isSubscribed
  {
  }

  // ---------------------------------------------------------------------------
  // An author's recipes in a subscription.
  // ---------------------------------------------------------------------------

  /**
    The largest number the database takes in the `LIMIT` the slice becomes:
    a signed 64-bit integer. A larger one makes the query fail when the list
    is serialized.
   */
  const MaxLimit: int := 0x7FFF_FFFF_FFFF_FFFF
  const LimitOutOfRange: string := "LIMIT out of range"

  /**
    `SubscriptionSerializer.get_recipes`: None for an anonymous caller;
    all the author's recipes when `recipes_limit` is absent or empty;
    otherwise the first `int(recipes_limit)` of them, where text that is not
    an integer, a negative number and a number beyond `MaxLimit` all raise.
   */
  function AuthorRecipes(requester: Requester, recipes: seq<Recipe>, recipesLimit: Option<string>): (r: Result<Option<seq<Recipe>>>)
    ensures requester.Anonymous? ==> r == Ok(None)
    ensures requester.Authenticated? && (recipesLimit.None? || recipesLimit == Some("")) ==> r == Ok(Some(recipes))
    ensures requester.Authenticated? && recipesLimit.Some? && recipesLimit.value != "" ==>
      match PyInt.Parse(recipesLimit.value)
      case None => r == Err(ServerError(LimitNotInteger))
      case Some(n) =>
        if n < 0 then r == Err(ServerError(NegativeLimit))
        else if n > MaxLimit then r == Err(ServerError(LimitOutOfRange))
        else r.Ok? && r.value.Some? && |r.value.value| == Min(n, |recipes|) && r.value.value == recipes[..|r.value.value|]
  {
    if requester.IsAnonymous() then Ok(None)
    else if recipesLimit.None? || recipesLimit.value == "" then Ok(Some(recipes))
    else
      match PyInt.Parse(recipesLimit.value)
      case None => Err(ServerError(LimitNotInteger))
      case Some(n) =>
        if n < 0 then Err(ServerError(NegativeLimit))
        else if n > MaxLimit then Err(ServerError(LimitOutOfRange))
        else Ok(Some(recipes[..Min(n, |recipes|)]))
  }

  /**
    Asking for at least as many recipes as the author has lists them all,
    as long as the database takes the limit; a larger limit is a server
    error.
   */
  lemma GenerousLimitListsAll(u: UserId, recipes: seq<Recipe>, n: nat)
    requires n >= |recipes|
    ensures n <= MaxLimit ==> AuthorRecipes(Authenticated(u), recipes, Some(PyInt.Decimal(n))) == Ok(Some(recipes))
    ensures n > MaxLimit ==>
      AuthorRecipes(Authenticated(u), recipes, Some(PyInt.Decimal(n))).Err?
      && AuthorRecipes(Authenticated(u), recipes, Some(PyInt.Decimal(n))).failure.ServerError?
  {
    var text := PyInt.Decimal(n);
    assert text != "";
    if n <= MaxLimit {
      PyInt.SmallPrintable(n);
      PyInt.DecimalRoundTrip(n);
      LimitWithinRange(u, recipes, text, n);
    } else if PyInt.Printable(n) {
      PyInt.DecimalRoundTrip(n);
      LimitBeyondRange(u, recipes, text);
    } else {
      PyInt.TooManyDigitsRefused(PyInt.Digits(n));
      LimitBeyondRange(u, recipes, text);
    }
  }

  /** A limit text that parses to a count the database takes, covering every recipe, lists them all. */
  lemma LimitWithinRange(u: UserId, recipes: seq<Recipe>, text: string, n: int)
    requires text != "" && PyInt.Parse(text) == Some(n) && |recipes| <= n <= MaxLimit
    ensures AuthorRecipes(Authenticated(u), recipes, Some(text)) == Ok(Some(recipes))
  {
    assert recipes[..Min(n, |recipes|)] == recipes;
  }

  /** A limit text that is not an integer, or is one beyond the database's range, is a server error. */
  lemma LimitBeyondRange(u: UserId, recipes: seq<Recipe>, text: string)
    requires text != "" && (PyInt.Parse(text).None? || PyInt.Parse(text).value > MaxLimit)
    ensures AuthorRecipes(Authenticated(u), recipes, Some(text)).Err?
    ensures AuthorRecipes(Authenticated(u), recipes, Some(text)).failure.ServerError?
  {
  }

  /** `recipes_limit=0` is a present, non-empty value: the list is empty rather than complete. */
  lemma ZeroLimitListsNone(u: UserId, recipes: seq<Recipe>)
    ensures AuthorRecipes(Authenticated(u), recipes, Some("0")) == Ok(Some([]))
  {
    assert PyInt.Decimal(0) == "0";
    PyInt.DecimalRoundTrip(0);
  }

  // ---------------------------------------------------------------------------
  // Subscription POST: the row is written before the answer is rendered.
  // ---------------------------------------------------------------------------

  /** What a subscription POST leaves behind: the subscription table, and the recipes of the answer or the error. */
  datatype SubscribeOutcome = SubscribeOutcome(subs: Links.Table, answer: Result<seq<Recipe>>)

  /**
    `subscribe` with POST: the serializer's checks, then `create`, which adds
    the row and only afterwards renders the author, `recipes_limit` included.
    A limit the rendering cannot use fails the request with the row already
    written.
   */
  function SubscribeRequest(users: set<UserId>, subs: Links.Table, user: UserId, author: UserId,
                            authorRecipes: seq<Recipe>, recipesLimit: Option<string>): (r: SubscribeOutcome)
    ensures Links.Subscribe(users, subs, user, author).Err? ==>
      r.subs == subs && r.answer == Err(Links.Subscribe(users, subs, user, author).failure)
    ensures Links.Subscribe(users, subs, user, author).Ok? ==> r.subs == subs + [Links.Pair(user, author)]
    ensures Links.Subscribe(users, subs, user, author).Ok? ==>
      (r.answer.Err? <==> AuthorRecipes(Authenticated(user), authorRecipes, recipesLimit).Err?)
    ensures Links.Subscribe(users, subs, user, author).Ok? && r.answer.Err? ==> r.answer.failure.ServerError?
    ensures r.answer.Ok? ==> |r.answer.value| <= |authorRecipes| && r.answer.value == authorRecipes[..|r.answer.value|]
  {
    match Links.Subscribe(users, subs, user, author)
    case Err(e) => SubscribeOutcome(subs, Err(e))
    case Ok(subs') =>
      match AuthorRecipes(Authenticated(user), authorRecipes, recipesLimit)
      case Err(e) => SubscribeOutcome(subs', Err(e))
      case Ok(shown) => SubscribeOutcome(subs', Ok(if shown.Some? then shown.value else []))
  }

  /**
    A `recipes_limit` that is not an integer, is negative or is beyond the
    database's range answers 500, yet the subscription stays: posting again
    is refused as a duplicate.
   */
  lemma FailedAnswerKeepsSubscription(users: set<UserId>, subs: Links.Table, user: UserId, author: UserId,
                                      authorRecipes: seq<Recipe>, text: string)
    requires Links.Subscribe(users, subs, user, author).Ok?
    requires text != ""
    requires PyInt.Parse(text).None? || PyInt.Parse(text).value < 0 || PyInt.Parse(text).value > MaxLimit
    ensures var r := SubscribeRequest(users, subs, user, author, authorRecipes, Some(text));
      && r.subs == subs + [Links.Pair(user, author)]
      && r.answer.Err? && r.answer.failure.ServerError?
      && Links.Subscribe(users, r.subs, user, author) == Err(BadRequest(Links.AlreadySubscribed))
  {
    var r := SubscribeRequest(users, subs, user, author, authorRecipes, Some(text));
    assert r.subs[|r.subs| - 1] == Links.Pair(user, author);
  }

  /** `?recipes_limit=abc` is such a limit. */
  lemma NonNumericLimitAfterSubscribing(users: set<UserId>, subs: Links.Table, user: UserId, author: UserId,
                                        authorRecipes: seq<Recipe>)
    requires Links.Subscribe(users, subs, user, author).Ok?
    ensures var r := SubscribeRequest(users, subs, user, author, authorRecipes, Some("abc"));
      r.subs == subs + [Links.Pair(user, author)] && r.answer == Err(ServerError(LimitNotInteger))
  {
    assert PyInt.Parse("abc").None?;
  }

  // ---------------------------------------------------------------------------
  // Recipe flags.
  // ---------------------------------------------------------------------------

  /** `get_is_favorited`: None for an anonymous caller, else whether the caller's favorite exists. */
  function IsFavorited(requester: Requester, favorites: Links.Table, recipe: RecipeId): (r: Option<bool>)
    ensures requester.Anonymous? <==> r.None?
    ensures requester.Authenticated? ==> (r.value <==> Links.Linked(favorites, requester.id, recipe))
  {
    match requester
    case Anonymous => None
    case Authenticated(u) => Some(Links.Linked(favorites, u, recipe))
  }

  /** The flags of one recipe in `RecipeListSerializer`. */
  datatype RecipeFlags = RecipeFlags(isFavorited: Option<bool>, isInShoppingCart: bool)

  /**
    The flags as written, computed field by field: an anonymous caller's
    recipe cannot be shown, though listing and retrieving recipes are open
    to anonymous callers.
   */
  function RecipeFlagsAsWritten(requester: Requester, favorites: Links.Table, cart: Links.Table, recipe: RecipeId): (r: Result<RecipeFlags>)
    ensures requester.Anonymous? ==> r.Err? && r.failure.Status() == ServerError500
    ensures requester.Authenticated? ==> r == Ok(RecipeFlags(IsFavorited(requester, favorites, recipe), false))
  {
    var inCart :- LinkFlagAsWritten(requester, cart, recipe);
    Ok(RecipeFlags(IsFavorited(requester, favorites, recipe), inCart))
  }

  /** The flags with the intended cart check. */
  function RecipeFlagsOf(requester: Requester, favorites: Links.Table, cart: Links.Table, recipe: RecipeId): (f: RecipeFlags)
    ensures requester.Anonymous? ==> f == RecipeFlags(None, false)
    ensures requester.Authenticated? ==>
      f == RecipeFlags(Some(Links.Linked(favorites, requester.id, recipe)), Links.Linked(cart, requester.id, recipe))
  {
    RecipeFlags(IsFavorited(requester, favorites, recipe), LinkFlag(requester, cart, recipe))
  }

  /** Adding a recipe to the cart turns the intended flag on and leaves the as-written flag off. */
  lemma CartFlagAfterAdd(recipes: set<RecipeId>, cart: Links.Table, user: UserId, recipe: RecipeId)
    requires Links.AddToCart(recipes, cart, user, recipe).Ok?
    ensures var cart' := Links.AddToCart(recipes, cart, user, recipe).value;
      LinkFlag(Authenticated(user), cart', recipe) && LinkFlagAsWritten(Authenticated(user), cart', recipe) == Ok(false)
  {
    var cart' := Links.AddToCart(recipes, cart, user, recipe).value;
    assert cart'[|cart'| - 1] == Links.Pair(user, recipe);
  }
}

=== FILE: validators.dfy ===
/**
  Field validators of the API: the username pattern `^[\w.@+-]+$` checked with
  `re.match`, and the numeric validators for a recipe's cooking time and an
  ingredient amount. The `api` and `recipes` packages and the `users` package
  carry near-identical copies; they are modelled once here, and the one
  difference (the amount bound) is a parameter.
 */
module FieldValidators {
  import opened Common
  import PyInt

  // ---------------------------------------------------------------------------
  // Username: ^[\w.@+-]+$
  // ---------------------------------------------------------------------------

  const UsernameMessage: string := "username содержит недопустимые символы!"

  /**
    Facts about Python's Unicode `\w` class that the model relies on: it never
    matches a line break, a space or a parenthesis. Which other characters it
    matches is left to the class itself.
   */
  predicate PythonWordClass(isWord: char -> bool) {
    !isWord('\n') && !isWord(' ') && !isWord('(') && !isWord(')')
  }

  /** A character of the class `[\w.@+-]`. */
  predicate UsernameChar(isWord: char -> bool, c: char) {
    isWord(c) || c == '.' || c == '@' || c == '+' || c == '-'
  }

  predicate AllUsernameChars(isWord: char -> bool, s: string) {
    forall i :: 0 <= i < |s| ==> UsernameChar(isWord, s[i])
  }

  /**
    What `^[\w.@+-]+$` accepts under `re.match`: one or more class characters,
    optionally followed by the single trailing newline Python's `$` tolerates.
   */
  predicate UsernameShape(isWord: char -> bool, s: string) {
    || (|s| > 0 && AllUsernameChars(isWord, s))
    || (|s| > 1 && s[|s| - 1] == '\n' && AllUsernameChars(isWord, s[..|s| - 1]))
  }

  /** End of the greedy run of class characters that starts at `i`. */
  function RunEnd(isWord: char -> bool, s: string, i: nat): (e: nat)
    requires i <= |s|
    ensures i <= e <= |s|
    ensures forall k :: i <= k < e ==> UsernameChar(isWord, s[k])
    ensures e == |s| || !UsernameChar(isWord, s[e])
    decreases |s| - i
  {
    if i < |s| && UsernameChar(isWord, s[i]) then RunEnd(isWord, s, i + 1) else i
  }

  /**
    The regular-expression engine's verdict: take the greedy run from the
    start, then `$` must hold where it stops (end of input, or just before a
    final newline).
   */
  function UsernameMatches(isWord: char -> bool, s: string): bool {
    var e := RunEnd(isWord, s, 0);
    e > 0 && (e == |s| || (e == |s| - 1 && s[e] == '\n'))
  }

  /** The greedy matcher accepts exactly the strings of the pattern's shape. */
  lemma UsernameMatchIff(isWord: char -> bool, s: string)
    requires PythonWordClass(isWord)
    ensures UsernameMatches(isWord, s) <==> UsernameShape(isWord, s)
  {
    var e := RunEnd(isWord, s, 0);
    if UsernameShape(isWord, s) {
      if |s| > 0 && AllUsernameChars(isWord, s) {
        assert e == |s|;
      } else {
        assert s[|s| - 1] == '\n' && !UsernameChar(isWord, s[|s| - 1]);
        assert e == |s| - 1;
      }
    }
    if UsernameMatches(isWord, s) && e < |s| {
      assert s[..|s| - 1] == s[..e];
    }
  }

  /**
    `validate_username`, the validator of the model's username column, whose
    value is always a string: the value itself when it matches the pattern,
    a validation error otherwise.
   */
  function ValidateUsername(isWord: char -> bool, value: string): (r: Result<string>)
    requires PythonWordClass(isWord)
    ensures r.Ok? <==> UsernameShape(isWord, value)
    ensures r.Ok? ==> r.value == value
    ensures r.Err? ==> r.failure == BadRequest(UsernameMessage)
  {
    UsernameMatchIff(isWord, value);
    if UsernameMatches(isWord, value) then Ok(value) else Err(BadRequest(UsernameMessage))
  }

  /**
    `UsernameFieldValidator.to_internal_value` on the raw JSON value of the
    sign-up body: the framework refuses null first; a string is checked as
    `validate_username` checks it; any other value makes `re.match` raise
    `TypeError`, which escapes as a server error.
   */
  function UsernameField(isWord: char -> bool, data: Data): (r: Result<string>)
    requires PythonWordClass(isWord)
    ensures r.Ok? <==> data.Text? && UsernameShape(isWord, data.s)
    ensures r.Ok? ==> r.value == data.s
    ensures data.Null? ==> r == Err(BadRequest(NullMessage))
    ensures data.Text? && r.Err? ==> r == Err(BadRequest(UsernameMessage))
    ensures r.Err? && r.failure.ServerError? <==> !data.Text? && !data.Null?
  {
    match data
    case Null => Err(BadRequest(NullMessage))
    case Text(s) => ValidateUsername(isWord, s)
    case _ => Err(ServerError("TypeError"))
  }

  /** On a string, the serializer field and the model validator give the same verdict. */
  lemma UsernameFieldAgrees(isWord: char -> bool, s: string)
    requires PythonWordClass(isWord)
    ensures UsernameField(isWord, Text(s)).Ok? <==> ValidateUsername(isWord, s).Ok?
    ensures UsernameField(isWord, Text(s)).Ok? ==> UsernameField(isWord, Text(s)).value == ValidateUsername(isWord, s).value
  {
  }

  /** Every field's `to_representation` hands its value back unchanged. */
  function ToRepresentation<T>(value: T): T {
    value
  }

  /** The empty string never passes: the pattern needs at least one character. */
  lemma EmptyUsernameRejected(isWord: char -> bool)
    requires PythonWordClass(isWord)
    ensures ValidateUsername(isWord, "").Err?
  {
  }

  /** A username that passes holds no space and no parenthesis. */
  lemma {:induction false} AcceptedUsernameAlphabet(isWord: char -> bool, value: string, i: int)
    requires PythonWordClass(isWord)
    requires ValidateUsername(isWord, value).Ok?
    requires 0 <= i < |value|
    ensures value[i] != ' ' && value[i] != '(' && value[i] != ')'
  {
    if !(|value| > 0 && AllUsernameChars(isWord, value)) {
      if i < |value| - 1 {
        assert value[i] == value[..|value| - 1][i];
      }
    }
  }

  // ---------------------------------------------------------------------------
  // Numeric fields
  // ---------------------------------------------------------------------------

  /**
    A JSON value of a request body as the parser hands it over: an integer,
    a number with a fraction or an exponent (a Python float: `Fraction` holds
    its exact finite value, `Infinite` one that overflowed, such as `1e400`),
    a string, a boolean, null, or a list or object (`Structured`). The
    parser refuses the literals `NaN` and `Infinity`, so no other float
    arrives.
   */
  datatype Data =
    | Number(n: int)
    | Fraction(x: real)
    | Infinite(negative: bool)
    | Text(s: string)
    | Flag(b: bool)
    | Null
    | Structured

  /** What Python's `int(data)` does with such a value. */
  datatype Conversion = Converted(n: int) | ValueError | TypeError | OverflowError

  /** `int()` of a finite float: the integer part, rounding toward zero. */
  function TruncateTowardZero(x: real): (n: int)
    ensures 0.0 <= x ==> 0 <= n && n as real <= x < n as real + 1.0
    ensures x < 0.0 ==> n <= 0 && n as real - 1.0 < x <= n as real
  {
    if x >= 0.0 then x.Floor else -((-x).Floor)
  }

  function PyIntOf(data: Data): (c: Conversion)
    ensures c.TypeError? <==> data.Null? || data.Structured?
    ensures c.OverflowError? <==> data.Infinite?
    ensures c.ValueError? ==> data.Text?
    ensures data.Number? ==> c == Converted(data.n)
    ensures data.Fraction? && 0.0 <= data.x ==> c.Converted? && c.n as real <= data.x < c.n as real + 1.0
    ensures data.Fraction? && data.x < 0.0 ==> c.Converted? && c.n as real - 1.0 < data.x <= c.n as real
    ensures data.Text? ==> (c.Converted? <==> PyInt.Parse(data.s).Some?)
  {
    match data
    case Number(n) => Converted(n)
    case Fraction(x) => Converted(TruncateTowardZero(x))
    case Infinite(_) => OverflowError
    case Text(s) => (match PyInt.Parse(s) case Some(n) => Converted(n) case None => ValueError)
    case Flag(b) => Converted(if b then 1 else 0)
    case Null => TypeError
    case Structured => TypeError
  }

  /** A fraction is cut toward zero in both directions: `int(2.5)` is 2 and `int(-2.5)` is -2. */
  lemma FractionTruncates()
    ensures PyIntOf(Fraction(2.5)) == Converted(2)
    ensures PyIntOf(Fraction(-2.5)) == Converted(-2)
  {
  }

  const CookingTimeRangeMessage: string := "Время приготовления должно быть больше 0 и не больше 1000"
  const CookingTimeNumberMessage: string := "Время приготовления должно быть указано цифрой"
  const CookingTimeBound: int := 1000

  const AmountRangeMessageApi: string := "Количество ингредиентов не может быть меньше 1 и больше 32767"
  const AmountRangeMessageRecipes: string := "Количество ингредиентов не может быть меньше 1 и больше 5000"
  const AmountNumberMessage: string := "Количество ингредиентов должно быть указано цифрой"
  /** The amount bound of the `api` package's validator. */
  const AmountBoundApi: int := 32767
  /** The amount bound of the `recipes` package's validator (its message says 5000). */
  const AmountBoundRecipes: int := 50000

  /** The framework's answer to null in a field that does not allow it, given before the field's own conversion. */
  const NullMessage: string := "This field may not be null."

  /**
    The shape both numeric validators share, as written: the framework
    refuses null first; then the value is converted with `int()`, the range
    error raised when `0 >= n > bound` (Python's chained comparison,
    `0 >= n and n > bound`), a `ValueError` turned into the "must be a
    number" error, a `TypeError` or `OverflowError` let escape, and the raw
    `data` returned.
   */
  function NumericAsWritten(data: Data, bound: int, rangeMessage: string, numberMessage: string): Result<Data> {
    if data.Null? then Err(BadRequest(NullMessage))
    else match PyIntOf(data)
    case Converted(n) =>
      if 0 >= n && n > bound then Err(BadRequest(rangeMessage)) else Ok(data)
    case ValueError => Err(BadRequest(numberMessage))
    case TypeError => Err(ServerError("TypeError"))
    case OverflowError => Err(ServerError("OverflowError"))
  }

  /** No integer is both at most 0 and above a non-negative bound. */
  lemma RangeGuardUnsatisfiable(n: int, bound: int)
    requires bound >= 0
    ensures !(0 >= n && n > bound)
  {
  }

  /**
    `CookingTimeRecipeFieldValidator.to_internal_value`: every value `int()`
    can convert is accepted and handed back as it came, whatever its size.
   */
  function CookingTime(data: Data): (r: Result<Data>)
    ensures r.Ok? <==> PyIntOf(data).Converted?
    ensures r.Ok? ==> r.value == data && ToRepresentation(r.value) == data
    ensures data.Null? ==> r == Err(BadRequest(NullMessage))
    ensures PyIntOf(data).ValueError? ==> r == Err(BadRequest(CookingTimeNumberMessage))
    ensures r.Err? && r.failure.ServerError? <==> data.Structured? || data.Infinite?
  {
    NumericAsWritten(data, CookingTimeBound, CookingTimeRangeMessage, CookingTimeNumberMessage)
  }

  /**
    `RecipeIngredientFieldValidator.to_internal_value` of the `api` package
    (bound 32767): accepts every convertible value unchanged.
   */
  function AmountApi(data: Data): (r: Result<Data>)
    ensures r.Ok? <==> PyIntOf(data).Converted?
    ensures r.Ok? ==> r.value == data && ToRepresentation(r.value) == data
    ensures data.Null? ==> r == Err(BadRequest(NullMessage))
    ensures PyIntOf(data).ValueError? ==> r == Err(BadRequest(AmountNumberMessage))
    ensures r.Err? && r.failure.ServerError? <==> data.Structured? || data.Infinite?
  {
    NumericAsWritten(data, AmountBoundApi, AmountRangeMessageApi, AmountNumberMessage)
  }

  /**
    `RecipeIngredientFieldValidator.to_internal_value` of the `recipes`
    package (bound 50000): accepts every convertible value unchanged.
   */
  function AmountRecipes(data: Data): (r: Result<Data>)
    ensures r.Ok? <==> PyIntOf(data).Converted?
    ensures r.Ok? ==> r.value == data && ToRepresentation(r.value) == data
    ensures data.Null? ==> r == Err(BadRequest(NullMessage))
    ensures PyIntOf(data).ValueError? ==> r == Err(BadRequest(AmountNumberMessage))
    ensures r.Err? && r.failure.ServerError? <==> data.Structured? || data.Infinite?
  {
    NumericAsWritten(data, AmountBoundRecipes, AmountRangeMessageRecipes, AmountNumberMessage)
  }

  /**
    A fractional cooking time such as 2.5 passes as written and is handed on
    as the float, which the integer column stores cut to 2; an overflowing
    one such as `1e400` escapes `int()` as a server error.
   */
  lemma FractionalCookingTimeAccepted()
    ensures CookingTime(Fraction(2.5)) == Ok(Fraction(2.5)) && PyIntOf(Fraction(2.5)) == Converted(2)
    ensures CookingTime(Infinite(false)) == Err(ServerError("OverflowError"))
  {
  }

  /**
    Digit text longer than CPython's conversion limit is refused with the
    "must be a number" error, because `int()` raises `ValueError` for it.
   */
  lemma LongNumberRefused(s: string)
    requires forall i :: 0 <= i < |s| ==> PyInt.IsDigit(s[i])
    requires |s| > PyInt.MaxStrDigits
    ensures CookingTime(Text(s)) == Err(BadRequest(CookingTimeNumberMessage))
    ensures AmountApi(Text(s)) == Err(BadRequest(AmountNumberMessage))
  {
    PyInt.TooManyDigitsRefused(s);
  }

  /** The two amount validators, despite their different bounds, agree on every input. */
  lemma AmountValidatorsAgree(data: Data)
    ensures AmountApi(data).Ok? <==> AmountRecipes(data).Ok?
  {
  }

  /** `int("0")` is 0. */
  lemma ZeroConverts()
    ensures PyIntOf(Text("0")) == Converted(0)
  {
    assert PyInt.Strip("0") == "0";
    assert PyInt.WellFormedDigits("0");
  }

  /**
    A cooking time of "0", below the minimum of 1 the recipe model declares,
    passes the validator as written.
   */
  lemma ZeroCookingTimeAccepted()
    ensures CookingTime(Text("0")) == Ok(Text("0"))
  {
    ZeroConverts();
  }

  /** The same holds for an ingredient amount of "0" under both bounds. */
  lemma ZeroAmountAccepted()
    ensures AmountApi(Text("0")) == Ok(Text("0"))
    ensures AmountRecipes(Text("0")) == Ok(Text("0"))
  {
    ZeroConverts();
  }

  /**
    The evidently intended numeric check: reject a converted value outside
    `1..bound` with the range error.
   */
  function NumericChecked(data: Data, bound: int, rangeMessage: string, numberMessage: string): (r: Result<Data>)
    ensures r.Ok? <==> PyIntOf(data).Converted? && 1 <= PyIntOf(data).n <= bound
    ensures r.Ok? ==> r.value == data
    ensures PyIntOf(data).Converted? && !(1 <= PyIntOf(data).n <= bound) ==> r == Err(BadRequest(rangeMessage))
    ensures PyIntOf(data).ValueError? ==> r == Err(BadRequest(numberMessage))
    ensures data.Null? ==> r == Err(BadRequest(NullMessage))
  {
    if data.Null? then Err(BadRequest(NullMessage))
    else match PyIntOf(data)
    case Converted(n) =>
      if n <= 0 || n > bound then Err(BadRequest(rangeMessage)) else Ok(data)
    case ValueError => Err(BadRequest(numberMessage))
    case TypeError => Err(ServerError("TypeError"))
    case OverflowError => Err(ServerError("OverflowError"))
  }

  /** Corrected cooking-time validator: exactly the values in 1..1000 pass. */
  function CookingTimeChecked(data: Data): (r: Result<Data>)
    ensures r.Ok? <==> PyIntOf(data).Converted? && 1 <= PyIntOf(data).n <= 1000
    ensures r.Ok? ==> r.value == data
  {
    NumericChecked(data, CookingTimeBound, CookingTimeRangeMessage, CookingTimeNumberMessage)
  }

  /** Corrected amount validator: exactly the values in 1..32767 pass. */
  function AmountChecked(data: Data): (r: Result<Data>)
    ensures r.Ok? <==> PyIntOf(data).Converted? && 1 <= PyIntOf(data).n <= 32767
    ensures r.Ok? ==> r.value == data
  {
    NumericChecked(data, AmountBoundApi, AmountRangeMessageApi, AmountNumberMessage)
  }

  /** The corrected validators reject the "0" that the written ones let through. */
  lemma CorrectedRejectsZero()
    ensures CookingTimeChecked(Text("0")) == Err(BadRequest(CookingTimeRangeMessage))
    ensures AmountChecked(Text("0")) == Err(BadRequest(AmountRangeMessageApi))
  {
    ZeroConverts();
  }

  /**
    The corrected and the written validators differ exactly on convertible
    values outside the range; elsewhere they give the same answer.
   */
  lemma CorrectionOnlyNarrowsRange(data: Data)
    ensures CookingTimeChecked(data).Ok? ==> CookingTime(data) == CookingTimeChecked(data)
    ensures CookingTime(data).Ok? && CookingTimeChecked(data).Err? ==>
      PyIntOf(data).Converted? && (PyIntOf(data).n < 1 || PyIntOf(data).n > 1000)
  {
  }
}
